=== FILE: README.md ===
# Airport service booking core, in Dafny

This project models the booking core of an airline backend written with Django and Django REST
Framework. Airplanes have a seating layout of `rows` rows with `seat_in_row` seats each. Routes join
two airports. Flights fly a route on an airplane between a departure and an arrival time. An order
groups the tickets a user buys, and a ticket is one (row, seat) on one flight.

What the model covers:

- **Database rules.** The check and unique constraints each model declares. The foreign keys and
  their `on_delete` policies: tickets cascade with their flight and their order, and a flight's
  airplane is set to null when the airplane is deleted.
- **Seat/row validator.** `Ticket.validate_seat_and_row`, including its error map and its messages
  (Python's `str.title()` and the decimal rendering of the bound are written out). Also `Ticket.clean`.
- **Request validation.** The `validate` hooks of the route, flight and ticket serializers. On a
  partial update the route and flight hooks fall back to the stored instance's fields. The ticket
  hook has no such fallback, so a PATCH that omits a ticket field crashes (see Findings). Also the
  flight serializer's unique-together validator, including its update behaviour: only changed
  values are checked, and a null airplane matches a null airplane.
- **Order creation.** `OrderCreateSerializer.create`: one order plus one ticket per nested payload,
  all in one transaction that commits everything or restores the store it started from.
- **Availability.** The count `rows × seat_in_row − tickets sold` that the flight list reports.
- **Permission.** The rule `IsAuthenticatedReadOnlyOrIsAdmin.has_permission`.

The database is a `Store`: one map per table, keyed by primary key. The auto-increment sequences of
the order and ticket tables are the counters `nextOrderId` and `nextTicketId`.

- `Constraints` gathers everything the database itself enforces.
- `SeatsWithinLayout` says every ticket whose flight has an airplane names one of that airplane's
  seats. The validator keeps this on every booking; no database rule does.
- `Valid` is both together.

Creating an order, saving a route, and each deletion are proved to preserve `Valid`. Saving a
flight preserves it only while the seats already sold on that flight fit the airplane it gets. The
flight serializer's text does not check this, so an update validated by it could move a flight onto
a smaller airplane and break `SeatsWithinLayout` (see Findings). No write path for flights appears
in the code modelled: the flight tests expect 405 for POST and PUT
(airport/tests/test_flight_api.py:318-324) and the admin site does not register `Flight`
(airport/admin.py:9-11), so the flight members describe what the serializer would decide if a
flight write reached it. From `Valid` and the ticket unique constraint on
(row, seat, flight), a flight never holds more tickets than its airplane has seats, so in a valid
store the availability count is never negative.

Modules, one per file:

- `Results` (results.dfy): option and result types.
- `Decimal` (decimal.dfy): decimal rendering of a natural number, with its parse and round trip.
- `Models` (models.dfy): records, constraints, validator, writes and deletions.
- `Capacity` (capacity.dfy): the seat grid and the availability count.
- `Serializers` (serializers.dfy): route, flight and ticket validation.
- `Orders` (orders.dfy): order creation.
- `Permissions` (permissions.dfy): the access rule.

Failures fall into two groups:

- **Python exceptions** appear as `Rejection` values. Examples: an `AttributeError` from reading a
  field of `None`, or a `TypeError` from a repeated keyword argument.
- **Database refusals** appear as `Violation` values, named by the constraint or column.

A few notes on how the model relates to the code:

- **Route unique-together validator.** The route serializer declares its unique-together validator
  under the attribute name `validator` (airport/serializers.py:73). Django REST Framework reads
  `validators`, so that list has no effect. Whether a duplicate (source, destination) pair is caught
  during validation therefore depends on the framework version generating one from the model's
  `UniqueConstraint`. The model takes the case where nothing does, so the database refuses the
  write (`DuplicateRouteReachesDatabase`). Because the outcome depends on the framework version,
  this is not listed as a finding.
- **Availability formula in the tests.** The flight-list tests compute availability from
  `airplane__seats_in_row` (airport/tests/test_flight_api.py:70), while the model field is
  `seat_in_row`. The model uses the model field.
- **Duplicate seats in one order.** A request that books the same seat twice is refused, and the
  whole order is rolled back. What refuses it is the ticket unique constraint at the second insert,
  not a validation error. Validation sees each payload alone, against the tickets already stored
  (`DuplicateSeatRollsBack`).

## Model

| member | source | states |
|---|---|---|
| Models.ValidateSeatAndRow | airport/models.py:196-219 | The validator passes exactly when 1 ≤ row ≤ rows and 1 ≤ seat ≤ seat_in_row. On failure, "row" is reported iff the row is out of range and "seat" iff the seat is, with no other key. Each message is the titled attribute name, "must be in available range:" and "(1, bound)". |
| Models.CollectErrors | airport/models.py:207-217 | The loop checks every line of the attribute table and does not stop at the first failure. An attribute appears in the error map iff its value is outside 1..bound, and maps to its range message. |
| Models.TitleNames | airport/models.py:214 | `attr_name.title()` turns the reported names into "Row" and "Seat". |
| Models.RangeMessageNamesUpper | airport/models.py:214-215 | Parsing the range message back recovers the airplane's bound: the message names the true upper end of the valid range. |
| Models.Clean | airport/models.py:221-227 | Clean passes exactly when the ticket's flight has an airplane and the seat fits it. A missing flight and a flight without an airplane each fail in their own way. Out-of-range failures carry the validator's own error map. |
| Models.SaveRoute | airport/models.py:64-76 | A route write is refused iff the route leads back to its own airport, or another route has the same (source, destination). Otherwise only that route changes. |
| Models.SaveRoutePreservesValid | airport/models.py:64-76 | A route write the database accepts keeps every constraint and the layout invariant. |
| Models.SaveFlight | airport/models.py:139-150 | A flight write is refused iff arrival ≤ departure, the route or airplane does not exist, or another flight shares route, non-null airplane and departure time. |
| Models.SaveFlightPreservesValid | airport/models.py:120-150 | An accepted flight write keeps the store valid, provided the tickets already sold on that flight fit the airplane it now has. |
| Models.InsertTicket | airport/models.py:171-191 | A ticket insert is refused iff its flight or order is missing, or its (row, seat, flight) is already sold. Otherwise it takes the next ticket key. |
| Models.InsertOrder | airport/models.py:156-162 | A new order takes a key no existing order has, and leaves every other table alone. |
| Models.DeleteOrder | airport/models.py:179-183 | Deleting an order removes only that order and exactly its tickets (cascade). Every other ticket, the other tables and the key counters are unchanged, and no ticket is added. |
| Models.DeleteFlight | airport/models.py:174-178 | Deleting a flight removes only that flight and exactly its tickets (cascade). Every other ticket, the other tables and the key counters are unchanged, and no ticket is added. |
| Models.DeleteAirplane | airport/models.py:130-135 | Deleting an airplane removes only that airplane and keeps every flight. The flights that used it lose their airplane (set null), and the other flights, tables and key counters are unchanged. |
| Models.DeleteOrderPreservesValid | airport/models.py:179-183 | The order cascade keeps every constraint and the layout invariant. |
| Models.DeleteFlightPreservesValid | airport/models.py:174-178 | The flight cascade keeps every constraint and the layout invariant. |
| Models.DeleteAirplanePreservesValid | airport/models.py:130-135 | Setting the airplane to null keeps the flight unique constraint, because a null airplane collides with nothing. |
| Capacity.CapacityBound | airport/models.py:185-191 | In a valid store, a flight never has more tickets than rows × seat_in_row. The tickets occupy distinct positions of the seat grid. |
| Capacity.AvailableTickets | airport/tests/test_flight_api.py:67-71 | The available count of a flight in a valid store lies between zero and the airplane's seat count. |
| Serializers.ValidateRouteAsWritten | airport/serializers.py:58-67 | As written, any request that omits the destination fails with an AttributeError on `detination`, once a source is known. |
| Serializers.ValidateRoute | airport/serializers.py:58-67 | A route request is accepted iff its effective source and destination (request value, else the stored one) exist and differ. It fails with the "can't be the same" message iff they are equal. Accepted data is returned unchanged. |
| Serializers.RouteTypoOnlyAffectsOmittedDestination | airport/serializers.py:59-60 | The code as written and the corrected validation agree on every request that supplies a destination. They differ only on partial updates that omit it. |
| Serializers.RouteTypoCounterexample | airport/serializers.py:60 | A partial update of a stored route's distance alone crashes as written but is valid. |
| Serializers.SaveRouteRequest | airport/serializers.py:56-78 | A route request succeeds exactly when validation passes and no other route has the same (source, destination); a success changes that one route and nothing else in the store. A validated request never reaches the database's check constraint, and the only database refusal it can meet is the unique constraint. |
| Serializers.DuplicateRouteReachesDatabase | airport/serializers.py:73-78 | A duplicate (source, destination) pair passes validation and is refused by the database's unique constraint. |
| Serializers.ValidateFlight | airport/serializers.py:106-116 | A flight request is accepted iff its effective arrival is strictly after its effective departure. It fails with the arrival message iff both are known and arrival ≤ departure. |
| Serializers.FlightUniqueTogether | airport/serializers.py:129-134 | The validator refuses iff it queries and another flight has the same route, airplane and departure time, a null airplane matching a null one. On a create it queries unless the airplane is null. On an update it queries only when some value of the triple changed and the airplane was not changed to null. |
| Serializers.CreateUniqueMatchesDatabase | airport/serializers.py:129-134 | On a create, the validator refuses exactly the flights the database's unique constraint refuses. |
| Serializers.UniqueTogetherGuardsDatabase | airport/serializers.py:129-134 | In a store with unique flights, whatever the validator lets through, create or update, the database's unique constraint accepts. |
| Serializers.NullAirplaneUpdateRefused | airport/serializers.py:129-134 | An update that moves an airplane-less flight onto the departure of another airplane-less flight on the same route is refused by the validator, though the database would accept it. No flight write path appears in the code modelled, so this is what the serializer would decide if one reached it. |
| Serializers.ValidateFlightRequest | airport/serializers.py:104-134 | A flight request validates iff the resulting flight satisfies the check constraint and the unique-together validator does not refuse it. |
| Serializers.ValidatedFlightSaves | airport/serializers.py:104-134 | In a store with unique flights, a flight that validates and whose route and airplane exist is always accepted by the database. |
| Serializers.ShrinkingAirplaneCounterexample | airport/serializers.py:104-134 | As written, moving a flight with both seats of a 2 × 1 airplane sold onto a 1 × 1 airplane validates and is written. A ticket is left outside the layout, and the flight reports −1 available tickets. This is the serializer's decision for a flight write, which no write path in the code modelled exposes. |
| Serializers.ValidateFlightRequestKeepingSeats | airport/serializers.py:104-134 | The corrected flight request is accepted iff it validates as written and every seat already sold on the flight fits the airplane it would get. |
| Serializers.SeatKeepingFlightSaveKeepsValid | airport/serializers.py:104-134 | A flight request accepted by the corrected check is written by the database and keeps the store valid, so availability stays non-negative. |
| Serializers.ValidateTicket | airport/serializers.py:188-195 | A ticket payload is accepted iff its flight has an airplane whose layout contains the seat. Field errors are the validator's. A flight without an airplane raises an AttributeError. |
| Serializers.ValidateTicketAsWritten | airport/serializers.py:188-195 | As written, a ticket request without a flight raises AttributeError on `airplane`. Without a row or a seat it raises TypeError comparing None. With every field supplied it decides exactly as the full-payload validation does. |
| Serializers.ValidateTicketPatch | airport/serializers.py:188-195 | With the fallback to the stored ticket, a request is accepted iff the effective seat, row and flight exist and the seat fits the flight's airplane. Its field errors are the validator's. |
| Serializers.TicketFallbackAgreesOnFullData | airport/serializers.py:188-195 | When every field is supplied, the code as written and the fallback version decide alike. |
| Serializers.TicketPatchCounterexample | airport/serializers.py:190-192 | A PATCH that sends only the row of a valid ticket crashes as written and passes with the fallback. |
| Serializers.TicketValidateMatchesClean | airport/serializers.py:188-195 | The serializer and `Ticket.clean` accept the same tickets, report the same range errors, and fail alike on a flight without an airplane. |
| Orders.InsertTickets | airport/serializers.py:221-223 | The ticket loop commits iff every payload's flight exists, every seat is unsold, and no two payloads share a seat. It then adds exactly one ticket of the order per payload under consecutive new keys, and nothing else. |
| Orders.CreateOrder | airport/serializers.py:217-224 | An order commits iff its tickets are bookable. On commit it has a fresh key and the store gains that order and its tickets. On refusal the store is exactly what it was (atomic). |
| Orders.CreateOrderAsWritten | airport/serializers.py:217-224 | As written, creation matches the corrected one on every request whose payloads carry no `order` entry, and fails on every request where some payload carries one. Every refusal still rolls back. |
| Orders.InsertTicketsAsWritten | airport/serializers.py:222-223 | Any payload carrying an `order` entry makes the inserts fail; when the payloads are bookable, the failure is the repeated-keyword TypeError. |
| Orders.OrderKeywordCounterexample | airport/serializers.py:223 | Booking one free seat with `"order": null` in its payload fails as written but commits once the entry is ignored. |
| Orders.TicketErrors | airport/serializers.py:188-195 | One payload's error map is empty iff its seat fits its flight's airplane, and otherwise it is the map the ticket validator fails with: "row" iff the row is out of range and "seat" iff the seat is, each with its range message. |
| Orders.ItemErrorsOf | airport/serializers.py:215 | The nested list validation yields one error map per payload: empty for a valid payload, and the ticket validator's own error map for an invalid one. It raises AttributeError iff some payload's flight has no airplane. |
| Orders.OrderCreateRequest | airport/serializers.py:214-224 | With a payload's own `order` entry ignored (see Findings): the whole request commits iff every payload fits its airplane and the tickets are bookable. A refused request leaves the store unchanged. |
| Orders.CommittedOrderOwnsItsTickets | airport/serializers.py:219-223 | A committed order owns exactly one ticket per payload, each carrying that payload's row, seat and flight. |
| Orders.EmptyOrderHasNoTickets | airport/serializers.py:219-221 | An absent or empty ticket list commits an order with no tickets. |
| Orders.DuplicateSeatRollsBack | airport/serializers.py:218-223 | Two payloads for the same seat make the whole request fail, and the store is unchanged. |
| Orders.ExtendsKeepsConstraints | airport/models.py:185-191 | Adding bookable tickets keeps every database constraint, in particular that no seat is sold twice on a flight. |
| Orders.OrderCreatePreservesValid | airport/serializers.py:214-224 | Any order request, committed or refused, leaves a valid store valid. |
| Orders.InsertTicketsCount | airport/serializers.py:221-223 | A commit adds to each flight exactly as many tickets as there are payloads for it. |
| Orders.AvailabilityAfterOrder | airport/tests/test_flight_api.py:67-71 | After a commit, a flight's available count drops by exactly the number of payloads for that flight. |
| Permissions.HasPermission | airport/permissions.py:5-13 | A request is permitted iff it has a user who is staff, or who is authenticated and uses GET, HEAD or OPTIONS. |
| Permissions.StaffMayDoAnything | airport/permissions.py:12 | A staff user is permitted every method, whether or not the authenticated flag is set. |
| Permissions.MembersOnlyRead | airport/permissions.py:8-10 | A signed-in user who is not staff may use exactly the read-only methods. |
| Permissions.WritesNeedStaff | airport/permissions.py:12 | Any method that writes is permitted exactly to staff users. |
| Permissions.AnonymousIsRefused | airport/permissions.py:6-13 | Without a user, or with one neither authenticated nor staff, nothing is permitted. |
| Permissions.PermissionMonotone | airport/permissions.py:6-13 | Becoming authenticated or staff never removes a permission. |

## Left out

- HTTP routing, views, query filters, pagination, image upload and the admin site: they do not
  decide anything the core promises.
- Users, JWT authentication and the 401/403 status chosen for a refused request: the permission
  rule is modelled on the user's two flags.
- Ownership scoping of orders (a user sees only their own orders): this is done in views, which are
  not part of this model.
- Concurrency between requests: each request is one atomic step. The race between two purchases of
  one seat reduces to the unique constraint refusing the second commit.
- Sequence values used up by a rolled-back transaction: a refused order leaves the key counters
  where they were.
- Countries, cities, airports, airplane types and crews, and the cascades from them to routes,
  flights and airplanes: only their ids appear.
- The Route → Flight cascade (airport/models.py:119-123): deleting a route, and with it its
  flights and their tickets, is not modelled; `DeleteFlight` covers the flight-to-ticket step of it.
- The airplane `capacity` field the airplane serializer lists, and updates of an airplane's layout.
  Shrinking a layout can leave sold tickets outside it, just as a flight update onto a smaller
  airplane can (see Findings).
- Capacity.CapacityBound: holds only for a valid store. A flight write accepted as written can leave
  a store that is not valid (`Serializers.ShrinkingAirplaneCounterexample`), and there the bound
  fails.
- Unique-together validators that the framework may generate from a `UniqueConstraint`: the model
  lets the database refuse duplicates.
- Field-level checks the framework makes before `validate`: an unknown flight or route id, or a
  required field left out of a create, is a field error there. The request members require the
  referenced flight to exist. The route and flight request members require the merged record to be
  complete, which excludes a create that omits a required field (for `airplane`, the
  unique-together validator's own required-field check).
- Times: `DateTimeField` values are plain integers on one clock, and `auto_now_add` is the `now`
  parameter.
- `str.title()` is modelled on ASCII letters only; the attribute names it is applied to are ASCII.
- The order of keys in an error dictionary: maps are unordered.
- Capacity.AvailableTickets: the database annotation yields null for a flight without an airplane;
  the member requires the airplane.

## Findings

| source | as written | input that shows it | evidently intended | confidence | as-written member | corrected member |
|---|---|---|---|---|---|---|
| airport/serializers.py:60 | the destination fallback reads `self.instance.detination` | a PATCH of a stored route (1 → 2) that sends only `distance` | fall back to `self.instance.destination` | high; not executed | Serializers.ValidateRouteAsWritten | Serializers.ValidateRoute |
| airport/serializers.py:223 | `Ticket.objects.create(order=order, **ticket)` keeps the payload's own `order` entry | an order whose ticket payload sends `"order": null` | drop the payload's `order` entry and attach the new order | medium; not executed | Orders.CreateOrderAsWritten | Orders.CreateOrder |
| airport/serializers.py:104-134 | flight validation checks the times and the (route, airplane, departure_time) triple only | moving a flight whose two seats of a 2 × 1 airplane are sold onto a 1 × 1 airplane | refuse an airplane whose layout does not contain the seats already sold on the flight | low, because no write path shown reaches this serializer: the flight tests expect 405 for POST and PUT (airport/tests/test_flight_api.py:318-324) and the admin site does not register Flight; not executed | Serializers.ShrinkingAirplaneCounterexample | Serializers.ValidateFlightRequestKeepingSeats |
| airport/serializers.py:188-195 | the ticket `validate` passes `data.get("seat")`, `data.get("row")` and `data.get("flight")` to the validator without falling back to the instance | a PATCH of a stored ticket that sends only `row` | fall back to the stored ticket's values, as the route and flight hooks do | medium; not executed | Serializers.ValidateTicketAsWritten | Serializers.ValidateTicketPatch |

=== FILE: capacity.dfy ===
/** Seating capacity of a flight and the availability count derived from it:
    rows × seats-per-row minus the tickets already sold. The bound that keeps
    that count non-negative follows from the ticket unique constraint on
    (row, seat, flight) together with the seat/row bounds the validator keeps. */
module Capacity {
  import opened Results
  import opened Models

  /** Number of seats an airplane's layout offers. */
  function SeatCount(plane: Airplane): nat {
    plane.rows * plane.seatInRow
  }

  /** The seats (row, seat) of row `row` numbered 1..`cols`. */
  function RowCells(row: nat, cols: nat): set<(nat, nat)>
    decreases cols
  {
    if cols == 0 then {} else RowCells(row, cols - 1) + {(row, cols)}
  }

  /** All seats of a layout with `rows` rows of `cols` seats, 1-based. */
  function Grid(rows: nat, cols: nat): set<(nat, nat)>
    decreases rows
  {
    if rows == 0 then {} else Grid(rows - 1, cols) + RowCells(rows, cols)
  }

  lemma {:induction false} RowCellsShape(row: nat, cols: nat)
    ensures forall p :: p in RowCells(row, cols) <==> p.0 == row && 1 <= p.1 <= cols
    ensures |RowCells(row, cols)| == cols
    decreases cols
  {
    if cols > 0 {
      RowCellsShape(row, cols - 1);
      assert (row, cols) !in RowCells(row, cols - 1);
    }
  }

  /** The grid holds exactly the in-range positions, rows × cols of them. */
  lemma {:induction false} GridShape(rows: nat, cols: nat)
    ensures forall p :: p in Grid(rows, cols) <==> 1 <= p.0 <= rows && 1 <= p.1 <= cols
    ensures |Grid(rows, cols)| == rows * cols
    decreases rows
  {
    if rows > 0 {
      GridShape(rows - 1, cols);
      RowCellsShape(rows, cols);
      assert Grid(rows - 1, cols) !! RowCells(rows, cols);
      assert |Grid(rows, cols)| == (rows - 1) * cols + cols;
    }
  }

  /** The tickets sold for flight `f`. */
  function FlightTickets(tickets: map<Id, Ticket>, f: Id): (ids: set<Id>)
    ensures forall t :: t in ids <==> t in tickets && tickets[t].flight == f
  {
    set t | t in tickets && tickets[t].flight == f
  }

  /** The (row, seat) positions occupied by the tickets `ids`. */
  function Positions(tickets: map<Id, Ticket>, ids: set<Id>): set<(nat, nat)>
    requires ids <= tickets.Keys
  {
    set t | t in ids :: (tickets[t].row, tickets[t].seat)
  }

  predicate DistinctPositions(tickets: map<Id, Ticket>, ids: set<Id>)
    requires ids <= tickets.Keys
  {
    forall a, b :: a in ids && b in ids && a != b ==>
      (tickets[a].row, tickets[a].seat) != (tickets[b].row, tickets[b].seat)
  }

  /** Tickets on distinct positions occupy as many positions as there are tickets. */
  lemma {:induction false} PositionsCount(tickets: map<Id, Ticket>, ids: set<Id>)
    requires ids <= tickets.Keys
    requires DistinctPositions(tickets, ids)
    ensures |Positions(tickets, ids)| == |ids|
    decreases ids
  {
    if ids != {} {
      var x :| x in ids;
      var rest := ids - {x};
      PositionsCount(tickets, rest);
      assert Positions(tickets, ids) == Positions(tickets, rest) + {(tickets[x].row, tickets[x].seat)};
      assert (tickets[x].row, tickets[x].seat) !in Positions(tickets, rest);
    }
  }

  lemma SubsetSize<T>(a: set<T>, b: set<T>)
    requires a <= b
    ensures |a| <= |b|
  {
    assert b == a + (b - a);
  }

  /** A flight never holds more tickets than its airplane has seats. */
  lemma CapacityBound(s: Store, f: Id)
    requires Valid(s)
    requires f in s.flights && FlightPlane(s, s.flights[f]).Some?
    ensures |FlightTickets(s.tickets, f)| <= SeatCount(FlightPlane(s, s.flights[f]).value)
  {
    var plane := FlightPlane(s, s.flights[f]).value;
    var ids := FlightTickets(s.tickets, f);
    assert DistinctPositions(s.tickets, ids) by {
      forall a, b | a in ids && b in ids && a != b
        ensures (s.tickets[a].row, s.tickets[a].seat) != (s.tickets[b].row, s.tickets[b].seat)
      {
        assert SeatKey(s.tickets[a]) != SeatKey(s.tickets[b]);
      }
    }
    PositionsCount(s.tickets, ids);
    GridShape(plane.rows, plane.seatInRow);
    forall p | p in Positions(s.tickets, ids)
      ensures p in Grid(plane.rows, plane.seatInRow)
    {
      var t :| t in ids && p == (s.tickets[t].row, s.tickets[t].seat);
      assert TicketPlane(s, s.tickets[t]) == Some(plane);
    }
    SubsetSize(Positions(s.tickets, ids), Grid(plane.rows, plane.seatInRow));
  }

  /** The flight list's `available_tickets`: seats of the airplane minus the
      tickets sold on the flight. In a valid store it lies between zero and
      the seat count. */
  function AvailableTickets(s: Store, f: Id): (n: int)
    requires f in s.flights && FlightPlane(s, s.flights[f]).Some?
    ensures Valid(s) ==> 0 <= n <= SeatCount(FlightPlane(s, s.flights[f]).value)
  {
    AvailabilityBound(s, f);
    SeatCount(FlightPlane(s, s.flights[f]).value) - |FlightTickets(s.tickets, f)|
  }

  lemma AvailabilityBound(s: Store, f: Id)
    requires f in s.flights && FlightPlane(s, s.flights[f]).Some?
    ensures Valid(s) ==> |FlightTickets(s.tickets, f)| <= SeatCount(FlightPlane(s, s.flights[f]).value)
  {
    if Valid(s) {
      CapacityBound(s, f);
    }
  }
}

=== FILE: decimal.dfy ===
/** Decimal rendering of non-negative integers, as Python's `str(n)` writes them,
    and the reading that recovers the number from its rendering. */
module Decimal {

  predicate IsDigit(c: char) {
    '0' <= c <= '9'
  }

  predicate AllDigits(s: string) {
    forall i :: 0 <= i < |s| ==> IsDigit(s[i])
  }

  function DigitChar(d: nat): (c: char)
    requires d < 10
    ensures IsDigit(c)
    ensures (c as int) - ('0' as int) == d
  {
    (('0' as int) + d) as char
  }

  function DigitValue(c: char): (d: nat)
    requires IsDigit(c)
    ensures d < 10
    ensures DigitChar(d) == c
  {
    (c as int) - ('0' as int)
  }

  /** The decimal numeral of `n`: only digits, and no leading zero unless `n` is zero. */
  function NatToString(n: nat): (s: string)
    ensures |s| >= 1
    ensures AllDigits(s)
    ensures s[0] == '0' <==> n == 0
    decreases n
  {
    if n < 10 then [DigitChar(n)] else NatToString(n / 10) + [DigitChar(n % 10)]
  }

  /** The number a string of digits denotes (most significant digit first). */
  function ParseNat(s: string): nat
    requires AllDigits(s)
    decreases |s|
  {
    if |s| == 0 then 0 else ParseNat(s[..|s| - 1]) * 10 + DigitValue(s[|s| - 1])
  }

  /** Reading a rendered numeral gives back the number. */
  lemma {:induction false} ParseNatToString(n: nat)
    ensures ParseNat(NatToString(n)) == n
    decreases n
  {
    var s := NatToString(n);
    if n < 10 {
      assert s[..|s| - 1] == [];
    } else {
      ParseNatToString(n / 10);
      assert s[..|s| - 1] == NatToString(n / 10);
      assert DigitValue(s[|s| - 1]) == n % 10;
    }
  }
}

=== FILE: models.dfy ===
/** The booking records of the airline backend (airport/models.py) and the
    rules the database keeps about them: the check and unique constraints
    declared in each model's `Meta`, the foreign keys and their `on_delete`
    policies, and the seat/row validator a ticket is cleaned with.

    A store holds one map per table, keyed by primary key. Times are plain
    integers (instants on one clock); airports, users and crews appear only
    as the ids that reference them. */
module Models {
  import opened Results
  import Decimal

  type Id = nat

  /** An aircraft and its seating layout: `rows` rows of `seatInRow` seats
      (the model field `seat_in_row`). Both are positive-integer columns,
      which in the database admit zero. */
  datatype Airplane = Airplane(name: string, rows: nat, seatInRow: nat, airplaneType: Id)

  /** A directed airport pair with a distance. */
  datatype Route = Route(source: Id, destination: Id, distance: nat)

  /** A scheduled operation of a route. `airplane` is a nullable foreign key
      (`on_delete=SET_NULL`). */
  datatype Flight = Flight(route: Id, airplane: Option<Id>, departure: int, arrival: int)

  /** A purchase made by one user at one instant. */
  datatype Order = Order(user: Id, createdAt: int)

  /** One seat on one flight, bought within one order. */
  datatype Ticket = Ticket(row: nat, seat: nat, flight: Id, order: Id)

  /** The tables of the database. `nextOrderId` and `nextTicketId` are the
      auto-increment sequences that hand out primary keys to new rows. */
  datatype Store = Store(
    airplanes: map<Id, Airplane>,
    routes: map<Id, Route>,
    flights: map<Id, Flight>,
    orders: map<Id, Order>,
    tickets: map<Id, Ticket>,
    nextOrderId: Id,
    nextTicketId: Id)

  /** A write the database refuses, named by the constraint or column it breaks. */
  datatype Violation =
    | CheckFailed(constraint: string)
    | UniqueFailed(constraint: string)
    | ForeignKeyFailed(column: string)

  const RouteCheckName := "source_destination_not_equal"
  const RouteUniqueName := "unique_source_destination"
  const FlightCheckName := "arrival_time_greater_than_departure_time"
  const FlightUniqueName := "unique_route_airplane_departure_time"
  const TicketUniqueName := "unique_row_seat_flight"

  /* ---------------------------------------------------------------------
     Constraints declared on the models
     --------------------------------------------------------------------- */

  /** Route check constraint: a route never leads back to its own airport. */
  predicate RouteCheck(r: Route) {
    r.source != r.destination
  }

  predicate SameEndpoints(r: Route, q: Route) {
    r.source == q.source && r.destination == q.destination
  }

  /** Route unique constraint on (source, destination). */
  predicate RoutesUnique(routes: map<Id, Route>) {
    forall a, b :: a in routes && b in routes && a != b ==> !SameEndpoints(routes[a], routes[b])
  }

  /** Flight check constraint: arrival strictly after departure. */
  predicate FlightCheck(f: Flight) {
    f.arrival > f.departure
  }

  /** Two flights collide on (route, airplane, departure_time). As in SQL, a
      null airplane equals nothing, so flights without an airplane never
      collide. */
  predicate FlightsClash(f: Flight, g: Flight) {
    f.route == g.route && f.airplane.Some? && f.airplane == g.airplane && f.departure == g.departure
  }

  predicate FlightsUnique(flights: map<Id, Flight>) {
    forall a, b :: a in flights && b in flights && a != b ==> !FlightsClash(flights[a], flights[b])
  }

  /** The physical seat a ticket occupies: (row, seat, flight). */
  function SeatKey(t: Ticket): (nat, nat, Id) {
    (t.row, t.seat, t.flight)
  }

  /** Ticket unique constraint on (row, seat, flight): no double booking. */
  predicate TicketsUnique(tickets: map<Id, Ticket>) {
    forall a, b :: a in tickets && b in tickets && a != b ==> SeatKey(tickets[a]) != SeatKey(tickets[b])
  }

  /** Every foreign key points at an existing row. */
  predicate ReferencesResolve(s: Store) {
    && (forall f :: f in s.flights ==> s.flights[f].route in s.routes)
    && (forall f :: f in s.flights && s.flights[f].airplane.Some? ==> s.flights[f].airplane.value in s.airplanes)
    && (forall t :: t in s.tickets ==> s.tickets[t].flight in s.flights && s.tickets[t].order in s.orders)
  }

  /** Every primary key was handed out by its sequence. */
  predicate KeysIssued(s: Store) {
    && (forall o :: o in s.orders ==> o < s.nextOrderId)
    && (forall t :: t in s.tickets ==> t < s.nextTicketId)
  }

  /** Everything the database itself enforces. */
  predicate Constraints(s: Store) {
    && (forall r :: r in s.routes ==> RouteCheck(s.routes[r]))
    && RoutesUnique(s.routes)
    && (forall f :: f in s.flights ==> FlightCheck(s.flights[f]))
    && FlightsUnique(s.flights)
    && TicketsUnique(s.tickets)
    && ReferencesResolve(s)
    && KeysIssued(s)
  }

  /* ---------------------------------------------------------------------
     Seat and row bounds
     --------------------------------------------------------------------- */

  /** A (row, seat) position exists on the airplane: both are 1-based and at
      most the layout's row count and seats per row. */
  predicate SeatFits(row: int, seat: int, plane: Airplane) {
    0 < row <= plane.rows && 0 < seat <= plane.seatInRow
  }

  /** Every ticket of a flight that has an airplane names a seat of that
      airplane. The database does not enforce this; the ticket validator does
      on every booking. */
  predicate SeatsWithinLayout(s: Store) {
    forall t :: t in s.tickets && TicketPlane(s, s.tickets[t]).Some? ==>
      SeatFits(s.tickets[t].row, s.tickets[t].seat, TicketPlane(s, s.tickets[t]).value)
  }

  /** The airplane of the ticket's flight, when the flight exists and has one. */
  function TicketPlane(s: Store, t: Ticket): (p: Option<Airplane>)
    ensures p.Some? ==> t.flight in s.flights && s.flights[t.flight].airplane.Some?
  {
    if t.flight in s.flights then FlightPlane(s, s.flights[t.flight]) else None
  }

  function FlightPlane(s: Store, f: Flight): Option<Airplane> {
    if f.airplane.Some? && f.airplane.value in s.airplanes then Some(s.airplanes[f.airplane.value]) else None
  }

  /** The state every operation of the booking path keeps. */
  predicate Valid(s: Store) {
    Constraints(s) && SeatsWithinLayout(s)
  }

  /** The airplane attribute a ticket attribute is checked against. */
  datatype LayoutAttr = Rows | SeatInRow

  function LayoutValue(plane: Airplane, a: LayoutAttr): nat {
    match a
    case Rows => plane.rows
    case SeatInRow => plane.seatInRow
  }

  /** One line of the validator's table: the ticket value, the ticket
      attribute's name and the airplane attribute bounding it. */
  datatype BoundCheck = BoundCheck(value: int, name: string, bound: LayoutAttr)

  /** The validator's table, in its order: row first, then seat. */
  function SeatChecks(seat: int, row: int): seq<BoundCheck> {
    [BoundCheck(row, "row", Rows), BoundCheck(seat, "seat", SeatInRow)]
  }

  predicate IsLowerAscii(c: char) { 'a' <= c <= 'z' }
  predicate IsUpperAscii(c: char) { 'A' <= c <= 'Z' }

  /** Python's `str.title()` on ASCII text: a cased letter is upper-case when
      it starts a word (follows an uncased character) and lower-case
      otherwise. `prevCased` says whether the character before `s` was cased. */
  function TitleFrom(s: string, prevCased: bool): (r: string)
    ensures |r| == |s|
    decreases |s|
  {
    if |s| == 0 then ""
    else
      var c := s[0];
      var c' :=
        if IsLowerAscii(c) && !prevCased then (c as int - 32) as char
        else if IsUpperAscii(c) && prevCased then (c as int + 32) as char
        else c;
      [c'] + TitleFrom(s[1..], IsLowerAscii(c) || IsUpperAscii(c))
  }

  function Title(s: string): (r: string)
    ensures |r| == |s|
  {
    TitleFrom(s, false)
  }

  /** The two attribute names the validator reports come out capitalised. */
  lemma TitleNames()
    ensures Title("row") == "Row" && Title("seat") == "Seat"
  {
  }

  const RangeText := " must be in available range:"

  /** The message reported for an attribute out of range; it names the valid
      range `(1, upper)`. */
  function RangeMessage(name: string, upper: nat): string {
    Title(name) + RangeText + "(1, " + Decimal.NatToString(upper) + ")"
  }

  /** The number a range message reports as its upper bound: the digits
      between the final "(1, " and the closing parenthesis. */
  function ReportedUpper(message: string, name: string): Option<nat> {
    var prefix := Title(name) + RangeText + "(1, ";
    if |message| > |prefix| && message[..|prefix|] == prefix && message[|message| - 1] == ')'
       && Decimal.AllDigits(message[|prefix|..|message| - 1])
    then Some(Decimal.ParseNat(message[|prefix|..|message| - 1]))
    else None
  }

  /** The message names the airplane attribute's value as the range's upper end. */
  lemma RangeMessageNamesUpper(name: string, upper: nat)
    ensures ReportedUpper(RangeMessage(name, upper), name) == Some(upper)
  {
    var prefix := Title(name) + RangeText + "(1, ";
    var digits := Decimal.NatToString(upper);
    var m := RangeMessage(name, upper);
    assert m == prefix + digits + ")";
    assert m[..|prefix|] == prefix;
    assert m[|prefix|..|m| - 1] == digits;
    Decimal.ParseNatToString(upper);
  }

  predicate InBounds(c: BoundCheck, plane: Airplane) {
    0 < c.value <= LayoutValue(plane, c.bound)
  }

  predicate DistinctNames(checks: seq<BoundCheck>) {
    forall i, j :: 0 <= i < j < |checks| ==> checks[i].name != checks[j].name
  }

  /** The error map the validator's loop builds: one entry per table line
      whose value is out of range, keyed by the ticket attribute's name and
      holding that attribute's range message. Every line is checked; none
      stops the loop. */
  function CollectErrors(checks: seq<BoundCheck>, plane: Airplane): (errors: map<string, string>)
    requires DistinctNames(checks)
    ensures forall i :: 0 <= i < |checks| ==> (checks[i].name in errors <==> !InBounds(checks[i], plane))
    ensures forall i :: 0 <= i < |checks| && checks[i].name in errors ==>
      errors[checks[i].name] == RangeMessage(checks[i].name, LayoutValue(plane, checks[i].bound))
    ensures forall k :: k in errors ==> exists i :: 0 <= i < |checks| && checks[i].name == k
    decreases |checks|
  {
    if |checks| == 0 then map[]
    else
      var init := checks[..|checks| - 1];
      assert forall i :: 0 <= i < |init| ==> init[i] == checks[i];
      var earlier := CollectErrors(init, plane);
      var c := checks[|checks| - 1];
      if InBounds(c, plane) then earlier
      else earlier[c.name := RangeMessage(c.name, LayoutValue(plane, c.bound))]
  }

  /** `Ticket.validate_seat_and_row`: checks the row against the airplane's
      rows and the seat against its seats per row, and fails with the map of
      every offending attribute to its range message. */
  function ValidateSeatAndRow(seat: int, row: int, plane: Airplane): (r: Outcome<map<string, string>>)
    ensures r.Pass? <==> SeatFits(row, seat, plane)
    ensures r.Fail? ==> r.error.Keys <= {"row", "seat"}
    ensures r.Fail? ==> ("row" in r.error <==> !(0 < row <= plane.rows))
    ensures r.Fail? ==> ("seat" in r.error <==> !(0 < seat <= plane.seatInRow))
    ensures r.Fail? && "row" in r.error ==> r.error["row"] == RangeMessage("row", plane.rows)
    ensures r.Fail? && "seat" in r.error ==> r.error["seat"] == RangeMessage("seat", plane.seatInRow)
  {
    var checks := SeatChecks(seat, row);
    assert checks[0].name == "row" && checks[1].name == "seat";
    var errors := CollectErrors(checks, plane);
    if errors == map[] then Pass
    else Fail(errors)
  }

  /** Why `Ticket.clean` refuses a ticket: the ticket's flight does not exist
      (Django's related-object lookup fails), the flight has no airplane (the
      validator reads `rows` of None), or the seat or row is out of range. */
  datatype CleanError =
    | MissingFlight
    | MissingAirplane
    | OutOfRange(errors: map<string, string>)

  /** `Ticket.clean`: the validator applied to the ticket's own seat, row and
      flight. */
  function Clean(s: Store, t: Ticket): (r: Outcome<CleanError>)
    ensures r.Pass? <==> TicketPlane(s, t).Some? && SeatFits(t.row, t.seat, TicketPlane(s, t).value)
    ensures r == Fail(MissingFlight) <==> t.flight !in s.flights
    ensures r == Fail(MissingAirplane) <==> t.flight in s.flights && TicketPlane(s, t).None?
    ensures r.Fail? && r.error.OutOfRange? ==>
      TicketPlane(s, t).Some? && Fail(r.error.errors) == ValidateSeatAndRow(t.seat, t.row, TicketPlane(s, t).value)
  {
    if t.flight !in s.flights then Fail(MissingFlight)
    else
      match TicketPlane(s, t)
      case None => Fail(MissingAirplane)
      case Some(plane) =>
        match ValidateSeatAndRow(t.seat, t.row, plane)
        case Pass => Pass
        case Fail(errors) => Fail(OutOfRange(errors))
  }

  /* ---------------------------------------------------------------------
     Writes, as the database performs them
     --------------------------------------------------------------------- */

  /** Saving a route under primary key `id` (a new key creates, an existing
      one updates). */
  function SaveRoute(s: Store, id: Id, r: Route): (res: Result<Store, Violation>)
    ensures res.Failure? <==> !RouteCheck(r) || exists k :: k in s.routes && k != id && SameEndpoints(s.routes[k], r)
    ensures res.Success? ==> res.value == s.(routes := s.routes[id := r])
  {
    if !RouteCheck(r) then Failure(CheckFailed(RouteCheckName))
    else if exists k :: k in s.routes && k != id && SameEndpoints(s.routes[k], r) then Failure(UniqueFailed(RouteUniqueName))
    else Success(s.(routes := s.routes[id := r]))
  }

  lemma SaveRoutePreservesValid(s: Store, id: Id, r: Route)
    requires Valid(s)
    requires SaveRoute(s, id, r).Success?
    ensures Valid(SaveRoute(s, id, r).value)
  {
    var s' := SaveRoute(s, id, r).value;
    assert forall t :: t in s'.tickets ==> TicketPlane(s', s'.tickets[t]) == TicketPlane(s, s.tickets[t]);
  }

  /** Saving a flight under primary key `id`. */
  function SaveFlight(s: Store, id: Id, f: Flight): (res: Result<Store, Violation>)
    ensures res.Failure? <==>
      || !FlightCheck(f)
      || f.route !in s.routes
      || (f.airplane.Some? && f.airplane.value !in s.airplanes)
      || exists k :: k in s.flights && k != id && FlightsClash(s.flights[k], f)
    ensures res.Success? ==> res.value == s.(flights := s.flights[id := f])
  {
    if !FlightCheck(f) then Failure(CheckFailed(FlightCheckName))
    else if f.route !in s.routes then Failure(ForeignKeyFailed("route_id"))
    else if f.airplane.Some? && f.airplane.value !in s.airplanes then Failure(ForeignKeyFailed("airplane_id"))
    else if exists k :: k in s.flights && k != id && FlightsClash(s.flights[k], f) then Failure(UniqueFailed(FlightUniqueName))
    else Success(s.(flights := s.flights[id := f]))
  }

  /** Every ticket of flight `id` names a seat of `plane`. */
  predicate TicketsFit(s: Store, id: Id, plane: Airplane) {
    forall t :: t in s.tickets && s.tickets[t].flight == id ==> SeatFits(s.tickets[t].row, s.tickets[t].seat, plane)
  }

  /** A saved flight keeps the store valid as long as the tickets already sold
      on it fit the airplane it is now given; a new flight has no tickets. */
  lemma SaveFlightPreservesValid(s: Store, id: Id, f: Flight)
    requires Valid(s)
    requires SaveFlight(s, id, f).Success?
    requires FlightPlane(s, f).Some? ==> TicketsFit(s, id, FlightPlane(s, f).value)
    ensures Valid(SaveFlight(s, id, f).value)
  {
    var s' := SaveFlight(s, id, f).value;
    forall a, b | a in s'.flights && b in s'.flights && a != b
      ensures !FlightsClash(s'.flights[a], s'.flights[b])
    {
      if a == id {
        assert !FlightsClash(s.flights[b], f);
      } else if b == id {
        assert !FlightsClash(s.flights[a], f);
      }
    }
    forall t | t in s'.tickets && TicketPlane(s', s'.tickets[t]).Some?
      ensures SeatFits(s'.tickets[t].row, s'.tickets[t].seat, TicketPlane(s', s'.tickets[t]).value)
    {
      if s.tickets[t].flight != id {
        assert TicketPlane(s', s'.tickets[t]) == TicketPlane(s, s.tickets[t]);
      }
    }
  }

  /** Inserting a ticket: it takes the next ticket key, its flight and order
      must exist, and its (row, seat, flight) must be free. */
  function InsertTicket(s: Store, t: Ticket): (res: Result<Store, Violation>)
    ensures res.Failure? <==>
      || t.flight !in s.flights
      || t.order !in s.orders
      || exists k :: k in s.tickets && SeatKey(s.tickets[k]) == SeatKey(t)
    ensures res.Success? ==>
      res.value == s.(tickets := s.tickets[s.nextTicketId := t], nextTicketId := s.nextTicketId + 1)
  {
    if t.flight !in s.flights then Failure(ForeignKeyFailed("flight_id"))
    else if t.order !in s.orders then Failure(ForeignKeyFailed("order_id"))
    else if exists k :: k in s.tickets && SeatKey(s.tickets[k]) == SeatKey(t) then Failure(UniqueFailed(TicketUniqueName))
    else Success(s.(tickets := s.tickets[s.nextTicketId := t], nextTicketId := s.nextTicketId + 1))
  }

  /** Inserting an order: it takes the next order key. */
  function InsertOrder(s: Store, o: Order): (r: (Store, Id))
    ensures KeysIssued(s) ==> r.1 !in s.orders
    ensures r.0.orders == s.orders[r.1 := o]
    ensures r.0.tickets == s.tickets && r.0.flights == s.flights
    ensures r.0.routes == s.routes && r.0.airplanes == s.airplanes
    ensures r.0.nextTicketId == s.nextTicketId
    ensures KeysIssued(s) ==> KeysIssued(r.0)
  {
    (s.(orders := s.orders[s.nextOrderId := o], nextOrderId := s.nextOrderId + 1), s.nextOrderId)
  }

  /* ---------------------------------------------------------------------
     Deletions and their on_delete policies
     --------------------------------------------------------------------- */

  /** Tickets left after removing those that satisfy `gone`. */
  function TicketsExcept(tickets: map<Id, Ticket>, gone: Ticket -> bool): (r: map<Id, Ticket>)
    ensures forall t :: t in r <==> t in tickets && !gone(tickets[t])
    ensures forall t :: t in r ==> r[t] == tickets[t]
  {
    map t | t in tickets && !gone(tickets[t]) :: tickets[t]
  }

  /** Deleting an order deletes its tickets (CASCADE). */
  function DeleteOrder(s: Store, id: Id): (r: Store)
    ensures r.orders == s.orders - {id}
    ensures r.tickets.Keys <= s.tickets.Keys
    ensures forall t :: t in r.tickets ==> r.tickets[t].order != id
    ensures forall t :: t in s.tickets && s.tickets[t].order != id ==> t in r.tickets && r.tickets[t] == s.tickets[t]
    ensures r.flights == s.flights && r.airplanes == s.airplanes && r.routes == s.routes
    ensures r.nextOrderId == s.nextOrderId && r.nextTicketId == s.nextTicketId
  {
    s.(orders := s.orders - {id}, tickets := TicketsExcept(s.tickets, (t: Ticket) => t.order == id))
  }

  /** Deleting a flight deletes its tickets (CASCADE). */
  function DeleteFlight(s: Store, id: Id): (r: Store)
    ensures r.flights == s.flights - {id}
    ensures r.tickets.Keys <= s.tickets.Keys
    ensures forall t :: t in r.tickets ==> r.tickets[t].flight != id
    ensures forall t :: t in s.tickets && s.tickets[t].flight != id ==> t in r.tickets && r.tickets[t] == s.tickets[t]
    ensures r.orders == s.orders && r.airplanes == s.airplanes && r.routes == s.routes
    ensures r.nextOrderId == s.nextOrderId && r.nextTicketId == s.nextTicketId
  {
    s.(flights := s.flights - {id}, tickets := TicketsExcept(s.tickets, (t: Ticket) => t.flight == id))
  }

  /** Deleting an airplane leaves its flights without an airplane (SET_NULL). */
  function DeleteAirplane(s: Store, id: Id): (r: Store)
    ensures r.airplanes == s.airplanes - {id}
    ensures r.flights.Keys == s.flights.Keys
    ensures forall f :: f in r.flights ==> r.flights[f].airplane != Some(id)
    ensures forall f :: f in s.flights ==>
      r.flights[f] == (if s.flights[f].airplane == Some(id) then s.flights[f].(airplane := None) else s.flights[f])
    ensures r.tickets == s.tickets && r.orders == s.orders && r.routes == s.routes
    ensures r.nextOrderId == s.nextOrderId && r.nextTicketId == s.nextTicketId
  {
    var flights := map f | f in s.flights ::
      if s.flights[f].airplane == Some(id) then s.flights[f].(airplane := None) else s.flights[f];
    s.(airplanes := s.airplanes - {id}, flights := flights)
  }

  lemma DeleteOrderPreservesValid(s: Store, id: Id)
    requires Valid(s)
    ensures Valid(DeleteOrder(s, id))
  {
    var r := DeleteOrder(s, id);
    assert forall t :: t in r.tickets ==> TicketPlane(r, r.tickets[t]) == TicketPlane(s, s.tickets[t]);
  }

  lemma DeleteFlightPreservesValid(s: Store, id: Id)
    requires Valid(s)
    ensures Valid(DeleteFlight(s, id))
  {
    var r := DeleteFlight(s, id);
    assert TicketsUnique(r.tickets) by {
      forall a, b | a in r.tickets && b in r.tickets && a != b
        ensures SeatKey(r.tickets[a]) != SeatKey(r.tickets[b])
      {
        assert r.tickets[a] == s.tickets[a] && r.tickets[b] == s.tickets[b];
      }
    }
    assert ReferencesResolve(r) by {
      forall t | t in r.tickets
        ensures r.tickets[t].flight in r.flights && r.tickets[t].order in r.orders
      {
        assert r.tickets[t] == s.tickets[t];
      }
    }
    forall t | t in r.tickets && TicketPlane(r, r.tickets[t]).Some?
      ensures SeatFits(r.tickets[t].row, r.tickets[t].seat, TicketPlane(r, r.tickets[t]).value)
    {
      assert r.tickets[t] == s.tickets[t];
      assert TicketPlane(r, r.tickets[t]) == TicketPlane(s, s.tickets[t]);
    }
  }

  /** Nulling the airplane keeps the flights unique because a null airplane
      collides with nothing; the tickets of those flights are no longer
      bound to any layout. */
  lemma DeleteAirplanePreservesValid(s: Store, id: Id)
    requires Valid(s)
    ensures Valid(DeleteAirplane(s, id))
  {
    var r := DeleteAirplane(s, id);
    forall a, b | a in r.flights && b in r.flights && a != b
      ensures !FlightsClash(r.flights[a], r.flights[b])
    {
      assert !FlightsClash(s.flights[a], s.flights[b]);
    }
    forall t | t in r.tickets && TicketPlane(r, r.tickets[t]).Some?
      ensures SeatFits(r.tickets[t].row, r.tickets[t].seat, TicketPlane(r, r.tickets[t]).value)
    {
      assert TicketPlane(r, r.tickets[t]) == TicketPlane(s, s.tickets[t]);
    }
  }
}

=== FILE: orders.dfy ===
/** Order creation (`OrderCreateSerializer`, airport/serializers.py): the
    nested ticket payloads are validated one by one, then the order and its
    tickets are inserted in one database transaction that either commits
    all of them or rolls back to the store it started from. */
module Orders {
  import opened Results
  import opened Models
  import Capacity
  import opened Serializers

  /** A transaction's end: the store afterwards and the new order's key, or
      the reason for the rollback. */
  datatype Txn = Txn(store: Store, outcome: Result<Id, Rejection>)

  /** The (row, seat, flight) a payload asks for. */
  function PayloadKey(p: TicketPayload): (nat, nat, Id) {
    (p.row, p.seat, p.flight)
  }

  /** The ticket a payload becomes inside order `order`. */
  function NewTicket(p: TicketPayload, order: Id): (t: Ticket)
    ensures SeatKey(t) == PayloadKey(p) && t.order == order
  {
    Ticket(p.row, p.seat, p.flight, order)
  }

  /** Seats already sold, as (row, seat, flight). */
  function Booked(s: Store): set<(nat, nat, Id)> {
    set t | t in s.tickets :: SeatKey(s.tickets[t])
  }

  /** Every payload asks for a free seat on an existing flight, and no two
      payloads ask for the same seat. */
  predicate Bookable(s: Store, order: Id, payloads: seq<TicketPayload>) {
    && (|payloads| > 0 ==> order in s.orders)
    && (forall i :: 0 <= i < |payloads| ==> payloads[i].flight in s.flights && PayloadKey(payloads[i]) !in Booked(s))
    && (forall i, j :: 0 <= i < j < |payloads| ==> PayloadKey(payloads[i]) != PayloadKey(payloads[j]))
  }

  /** `s'` is `s` with one new ticket of order `order` per payload, under
      consecutive new keys, and nothing else changed. */
  predicate Extends(s: Store, s': Store, order: Id, payloads: seq<TicketPayload>) {
    && s'.airplanes == s.airplanes && s'.routes == s.routes && s'.flights == s.flights
    && s'.orders == s.orders && s'.nextOrderId == s.nextOrderId
    && s'.nextTicketId == s.nextTicketId + |payloads|
    && (forall t :: t in s.tickets ==> t in s'.tickets && s'.tickets[t] == s.tickets[t])
    && (forall t :: s.nextTicketId <= t < s.nextTicketId + |payloads| ==>
          t in s'.tickets && s'.tickets[t] == NewTicket(payloads[t - s.nextTicketId], order))
    && (forall t :: t in s'.tickets ==> t in s.tickets || s.nextTicketId <= t < s.nextTicketId + |payloads|)
  }

  /** The loop of `Ticket.objects.create` calls, one per payload, stopping at
      the first insert the database refuses. */
  function InsertTickets(s: Store, order: Id, payloads: seq<TicketPayload>): (r: Result<Store, Violation>)
    requires KeysIssued(s)
    ensures r.Success? ==> Extends(s, r.value, order, payloads) && KeysIssued(r.value)
    ensures r.Success? <==> Bookable(s, order, payloads)
    decreases |payloads|
  {
    if |payloads| == 0 then Success(s)
    else
      match InsertTicket(s, NewTicket(payloads[0], order))
      case Failure(v) =>
        assert !Bookable(s, order, payloads) by {
          if payloads[0].flight in s.flights && order in s.orders {
            var k :| k in s.tickets && SeatKey(s.tickets[k]) == PayloadKey(payloads[0]);
            assert PayloadKey(payloads[0]) in Booked(s);
          }
        }
        Failure(v)
      case Success(s1) =>
        var rest := payloads[1..];
        assert forall i :: 0 <= i < |rest| ==> rest[i] == payloads[i + 1];
        BookedAfterInsert(s, NewTicket(payloads[0], order));
        assert Bookable(s, order, payloads) <==> Bookable(s1, order, rest) by {
          if Bookable(s1, order, rest) {
            forall i, j | 0 <= i < j < |payloads|
              ensures PayloadKey(payloads[i]) != PayloadKey(payloads[j])
            {
              if i > 0 {
                assert payloads[i] == rest[i - 1] && payloads[j] == rest[j - 1];
              } else {
                assert payloads[j] == rest[j - 1];
              }
            }
            assert PayloadKey(payloads[0]) !in Booked(s) by {
              assert !exists k :: k in s.tickets && SeatKey(s.tickets[k]) == SeatKey(NewTicket(payloads[0], order));
            }
          }
          if Bookable(s, order, payloads) {
            forall i | 0 <= i < |rest|
              ensures PayloadKey(rest[i]) !in Booked(s1)
            {
              assert rest[i] == payloads[i + 1];
            }
          }
        }
        var r := InsertTickets(s1, order, rest);
        if r.Success? then
          ExtendsStep(s, s1, r.value, order, payloads);
          r
        else r
  }

  lemma BookedAfterInsert(s: Store, t: Ticket)
    requires KeysIssued(s)
    requires InsertTicket(s, t).Success?
    ensures Booked(InsertTicket(s, t).value) == Booked(s) + {SeatKey(t)}
  {
    var s1 := InsertTicket(s, t).value;
    assert s.nextTicketId !in s.tickets;
    forall k | k in Booked(s1) ensures k in Booked(s) + {SeatKey(t)} {
      var x :| x in s1.tickets && SeatKey(s1.tickets[x]) == k;
      if x != s.nextTicketId {
        assert SeatKey(s.tickets[x]) in Booked(s);
      }
    }
    forall k | k in Booked(s) ensures k in Booked(s1) {
      var x :| x in s.tickets && SeatKey(s.tickets[x]) == k;
      assert s1.tickets[x] == s.tickets[x];
    }
    assert SeatKey(s1.tickets[s.nextTicketId]) in Booked(s1);
  }

  /** One insert followed by the extension for the remaining payloads is the
      extension for all of them. */
  lemma ExtendsStep(s: Store, s1: Store, s2: Store, order: Id, payloads: seq<TicketPayload>)
    requires KeysIssued(s)
    requires |payloads| > 0
    requires InsertTicket(s, NewTicket(payloads[0], order)) == Success(s1)
    requires Extends(s1, s2, order, payloads[1..])
    ensures Extends(s, s2, order, payloads)
  {
    var rest := payloads[1..];
    assert s.nextTicketId !in s.tickets;
    forall t | t in s.tickets ensures t in s2.tickets && s2.tickets[t] == s.tickets[t] {
      assert t in s1.tickets && s1.tickets[t] == s.tickets[t];
    }
    assert s1.tickets == s.tickets[s.nextTicketId := NewTicket(payloads[0], order)];
    forall t | s.nextTicketId <= t < s.nextTicketId + |payloads|
      ensures t in s2.tickets && s2.tickets[t] == NewTicket(payloads[t - s.nextTicketId], order)
    {
      if t == s.nextTicketId {
        assert s.nextTicketId in s1.tickets;
        assert s2.tickets[s.nextTicketId] == s1.tickets[s.nextTicketId];
      } else {
        assert t in s2.tickets && s2.tickets[t] == NewTicket(rest[t - s1.nextTicketId], order);
        assert rest[t - s1.nextTicketId] == payloads[t - s.nextTicketId];
      }
    }
  }

  /** `OrderCreateSerializer.create`: inside one transaction, inserts the
      order, then one ticket per payload with `order` set to it (none when
      the request carried no tickets). A refused insert rolls everything
      back. The ticket payload's own `order` entry is ignored. */
  function CreateOrder(s: Store, user: Id, now: int, tickets: Option<seq<TicketPayload>>): (r: Txn)
    requires KeysIssued(s)
    ensures r.outcome.Failure? ==> r.store == s
    ensures r.outcome.Success? <==>
      Bookable(InsertOrder(s, Order(user, now)).0, s.nextOrderId, PayloadsOf(tickets))
    ensures r.outcome.Success? ==>
      && r.outcome.value == s.nextOrderId
      && r.outcome.value !in s.orders
      && r.store.orders == s.orders[r.outcome.value := Order(user, now)]
      && Extends(InsertOrder(s, Order(user, now)).0, r.store, r.outcome.value, PayloadsOf(tickets))
  {
    var (s1, order) := InsertOrder(s, Order(user, now));
    match InsertTickets(s1, order, PayloadsOf(tickets))
    case Success(s2) => Txn(s2, Success(order))
    case Failure(v) => Txn(s, Failure(Integrity(v)))
  }

  /** `validated_data.pop("tickets", None)` followed by `if tickets_data`:
      an absent list and an empty one both insert nothing. */
  function PayloadsOf(tickets: Option<seq<TicketPayload>>): seq<TicketPayload> {
    if tickets.Some? then tickets.value else []
  }

  /** `OrderCreateSerializer.create` as written: each ticket is created with
      `order=order` next to the payload's own entries, so a payload that
      carries an `order` entry (even null) makes the call receive `order`
      twice and raise TypeError, which rolls the transaction back. */
  function CreateOrderAsWritten(s: Store, user: Id, now: int, tickets: Option<seq<TicketPayload>>): (r: Txn)
    requires KeysIssued(s)
    ensures r.outcome.Failure? ==> r.store == s
    ensures (forall i :: 0 <= i < |PayloadsOf(tickets)| ==> PayloadsOf(tickets)[i].order.None?) ==>
      r == CreateOrder(s, user, now, tickets)
    ensures (exists i :: 0 <= i < |PayloadsOf(tickets)| && PayloadsOf(tickets)[i].order.Some?) ==>
      r.outcome.Failure?
  {
    var (s1, order) := InsertOrder(s, Order(user, now));
    match InsertTicketsAsWritten(s1, order, PayloadsOf(tickets))
    case Success(s2) => Txn(s2, Success(order))
    case Failure(e) => Txn(s, Failure(e))
  }

  function InsertTicketsAsWritten(s: Store, order: Id, payloads: seq<TicketPayload>): (r: Result<Store, Rejection>)
    requires KeysIssued(s)
    ensures (forall i :: 0 <= i < |payloads| ==> payloads[i].order.None?) ==>
      r == (match InsertTickets(s, order, payloads)
            case Success(s') => Success(s')
            case Failure(v) => Failure(Integrity(v)))
    ensures (exists i :: 0 <= i < |payloads| && payloads[i].order.Some?) ==> r.Failure?
    ensures (exists i :: 0 <= i < |payloads| && payloads[i].order.Some?) && Bookable(s, order, payloads) ==>
      r == Failure(KeywordClash("order"))
    decreases |payloads|
  {
    if |payloads| == 0 then Success(s)
    else if payloads[0].order.Some? then Failure(KeywordClash("order"))
    else
      match InsertTicket(s, NewTicket(payloads[0], order))
      case Failure(v) => Failure(Integrity(v))
      case Success(s1) =>
        var rest := payloads[1..];
        assert forall i :: 0 <= i < |rest| ==> rest[i] == payloads[i + 1];
        assert (exists i :: 0 <= i < |payloads| && payloads[i].order.Some?) ==>
          exists i :: 0 <= i < |rest| && rest[i].order.Some? by {
          if i :| 0 <= i < |payloads| && payloads[i].order.Some? {
            assert rest[i - 1].order.Some?;
          }
        }
        assert Bookable(s, order, payloads) ==> Bookable(s1, order, rest) by {
          if Bookable(s, order, payloads) {
            var r0 := InsertTickets(s, order, payloads);
            assert r0.Success?;
          }
        }
        InsertTicketsAsWritten(s1, order, rest)
  }

  /** A booking of one free seat whose payload sent `"order": null` is
      refused as written and commits once the payload's entry is ignored. */
  lemma OrderKeywordCounterexample(s: Store, user: Id, now: int, flight: Id)
    requires KeysIssued(s)
    requires flight in s.flights
    requires (1, 1, flight) !in Booked(s)
    ensures CreateOrderAsWritten(s, user, now, Some([TicketPayload(1, 1, flight, Some(None))])).outcome
      == Failure(KeywordClash("order"))
    ensures CreateOrder(s, user, now, Some([TicketPayload(1, 1, flight, Some(None))])).outcome.Success?
  {
    var payloads := [TicketPayload(1, 1, flight, Some(None))];
    var s1 := InsertOrder(s, Order(user, now)).0;
    assert Booked(s1) == Booked(s);
    assert Bookable(s1, s.nextOrderId, payloads);
  }

  /* ---------------------------------------------------------------------
     The whole request
     --------------------------------------------------------------------- */

  /** The error map the ticket serializer reports for one payload: empty
      when the seat fits, the validator's errors otherwise. */
  function TicketErrors(s: Store, p: TicketPayload): (errors: map<string, string>)
    requires p.flight in s.flights && FlightPlane(s, s.flights[p.flight]).Some?
    ensures errors == map[] <==> SeatFits(p.row, p.seat, FlightPlane(s, s.flights[p.flight]).value)
    ensures ValidateTicket(s, p).Failure? ==> ValidateTicket(s, p).error == FieldErrors(errors)
  {
    var v := ValidateTicket(s, p);
    if v.Success? then map[]
    else
      var plane := FlightPlane(s, s.flights[p.flight]).value;
      var e := ValidateSeatAndRow(p.seat, p.row, plane);
      assert e.Fail? ==> e.error != map[] by {
        if e.Fail? {
          assert !(0 < p.row <= plane.rows) ==> "row" in e.error;
        }
      }
      e.error
  }

  /** The nested list serializer's pass over the payloads: the error map of
      each payload (empty when it is valid), or the AttributeError a payload
      on a flight without an airplane raises. */
  function ItemErrorsOf(s: Store, payloads: seq<TicketPayload>): (r: Result<seq<map<string, string>>, Rejection>)
    requires forall i :: 0 <= i < |payloads| ==> payloads[i].flight in s.flights
    ensures r.Success? ==> |r.value| == |payloads|
    ensures r.Success? <==> forall i :: 0 <= i < |payloads| ==> FlightPlane(s, s.flights[payloads[i].flight]).Some?
    ensures r.Success? ==> forall i :: 0 <= i < |payloads| ==>
      (r.value[i] == map[] <==> SeatFits(payloads[i].row, payloads[i].seat, FlightPlane(s, s.flights[payloads[i].flight]).value))
    ensures r.Success? ==> forall i :: 0 <= i < |payloads| ==>
      r.value[i] == (if ValidateTicket(s, payloads[i]).Success? then map[] else ValidateTicket(s, payloads[i]).error.errors)
  {
    if exists i :: 0 <= i < |payloads| && FlightPlane(s, s.flights[payloads[i].flight]).None?
    then Failure(MissingAttribute("NoneType", "rows"))
    else Success(seq(|payloads|, i requires 0 <= i < |payloads| => TicketErrors(s, payloads[i])))
  }

  /** Every payload names a seat of its flight's airplane. */
  predicate AllSeatsFit(s: Store, payloads: seq<TicketPayload>)
    requires forall i :: 0 <= i < |payloads| ==> payloads[i].flight in s.flights
  {
    forall i :: 0 <= i < |payloads| ==>
      FlightPlane(s, s.flights[payloads[i].flight]).Some? &&
      SeatFits(payloads[i].row, payloads[i].seat, FlightPlane(s, s.flights[payloads[i].flight]).value)
  }

  /** `OrderCreateSerializer` end to end, with a payload's own `order` entry
      ignored (the corrected `CreateOrder`; `CreateOrderAsWritten` is the
      code as written): the nested tickets are validated, then the order is
      created. Every payload's flight exists, as the relation field resolves
      it before validation. */
  function OrderCreateRequest(s: Store, user: Id, now: int, tickets: Option<seq<TicketPayload>>): (r: Txn)
    requires KeysIssued(s)
    requires forall i :: 0 <= i < |PayloadsOf(tickets)| ==> PayloadsOf(tickets)[i].flight in s.flights
    ensures r.outcome.Failure? ==> r.store == s
    ensures r.outcome.Success? ==> AllSeatsFit(s, PayloadsOf(tickets))
    ensures r.outcome.Success? <==>
      AllSeatsFit(s, PayloadsOf(tickets)) && CreateOrder(s, user, now, tickets).outcome.Success?
    ensures r.outcome.Success? ==> r == CreateOrder(s, user, now, tickets)
  {
    var payloads := PayloadsOf(tickets);
    match ItemErrorsOf(s, payloads)
    case Failure(e) => Txn(s, Failure(e))
    case Success(items) =>
      if exists i :: 0 <= i < |items| && items[i] != map[] then Txn(s, Failure(ItemErrors(items)))
      else CreateOrder(s, user, now, tickets)
  }

  /* ---------------------------------------------------------------------
     What a committed order leaves behind
     --------------------------------------------------------------------- */

  /** The keys of the tickets that belong to order `order`. */
  function OrderTickets(s: Store, order: Id): set<Id> {
    set t | t in s.tickets && s.tickets[t].order == order
  }

  /** The keys lo, lo + 1, ..., lo + n - 1. */
  function KeyRange(lo: nat, n: nat): set<Id>
    decreases n
  {
    if n == 0 then {} else KeyRange(lo, n - 1) + {lo + n - 1}
  }

  lemma {:induction false} KeyRangeShape(lo: nat, n: nat)
    ensures forall k :: k in KeyRange(lo, n) <==> lo <= k < lo + n
    ensures |KeyRange(lo, n)| == n
    decreases n
  {
    if n > 0 {
      KeyRangeShape(lo, n - 1);
    }
  }

  /** When no earlier ticket belongs to `order`, the order's tickets after
      an extension are exactly the new keys, one per payload. */
  lemma ExtendsOrderTickets(s: Store, s': Store, order: Id, payloads: seq<TicketPayload>)
    requires Extends(s, s', order, payloads)
    requires forall t :: t in s.tickets ==> s.tickets[t].order != order
    ensures OrderTickets(s', order) == KeyRange(s.nextTicketId, |payloads|)
    ensures |OrderTickets(s', order)| == |payloads|
  {
    var n := s.nextTicketId;
    KeyRangeShape(n, |payloads|);
    assert forall t :: t in OrderTickets(s', order) ==> t in KeyRange(n, |payloads|);
    forall t | t in KeyRange(n, |payloads|) ensures t in OrderTickets(s', order) {
      assert s'.tickets[t] == NewTicket(payloads[t - n], order);
    }
  }

  /** A committed order owns exactly one ticket per payload, and those are
      the payloads' seats on the payloads' flights. */
  lemma CommittedOrderOwnsItsTickets(s: Store, user: Id, now: int, tickets: Option<seq<TicketPayload>>)
    requires KeysIssued(s) && forall t :: t in s.tickets ==> s.tickets[t].order in s.orders
    requires CreateOrder(s, user, now, tickets).outcome.Success?
    ensures |OrderTickets(CreateOrder(s, user, now, tickets).store, s.nextOrderId)| == |PayloadsOf(tickets)|
    ensures forall t :: t in OrderTickets(CreateOrder(s, user, now, tickets).store, s.nextOrderId) ==>
      s.nextTicketId <= t < s.nextTicketId + |PayloadsOf(tickets)| &&
      SeatKey(CreateOrder(s, user, now, tickets).store.tickets[t]) == PayloadKey(PayloadsOf(tickets)[t - s.nextTicketId])
  {
    var r := CreateOrder(s, user, now, tickets).store;
    var s1 := InsertOrder(s, Order(user, now)).0;
    NoTicketOfNewOrder(s, user, now);
    CommittedTickets(s1, r, s.nextOrderId, PayloadsOf(tickets));
  }

  lemma NoTicketOfNewOrder(s: Store, user: Id, now: int)
    requires KeysIssued(s) && forall t :: t in s.tickets ==> s.tickets[t].order in s.orders
    ensures forall t :: t in InsertOrder(s, Order(user, now)).0.tickets ==>
      InsertOrder(s, Order(user, now)).0.tickets[t].order != s.nextOrderId
  {
    assert s.nextOrderId !in s.orders;
  }

  lemma CommittedTickets(s1: Store, r: Store, o: Id, payloads: seq<TicketPayload>)
    requires Extends(s1, r, o, payloads)
    requires forall t :: t in s1.tickets ==> s1.tickets[t].order != o
    ensures |OrderTickets(r, o)| == |payloads|
    ensures forall t :: t in OrderTickets(r, o) ==>
      s1.nextTicketId <= t < s1.nextTicketId + |payloads| &&
      SeatKey(r.tickets[t]) == PayloadKey(payloads[t - s1.nextTicketId])
  {
    ExtendsOrderTickets(s1, r, o, payloads);
    KeyRangeShape(s1.nextTicketId, |payloads|);
    forall t | t in OrderTickets(r, o)
      ensures SeatKey(r.tickets[t]) == PayloadKey(payloads[t - s1.nextTicketId])
    {
      assert r.tickets[t] == NewTicket(payloads[t - s1.nextTicketId], o);
    }
  }

  /** A request without tickets, or with an empty list, commits an order
      that owns no ticket. */
  lemma EmptyOrderHasNoTickets(s: Store, user: Id, now: int, tickets: Option<seq<TicketPayload>>)
    requires Constraints(s)
    requires tickets == None || tickets == Some([])
    ensures CreateOrder(s, user, now, tickets).outcome == Success(s.nextOrderId)
    ensures OrderTickets(CreateOrder(s, user, now, tickets).store, s.nextOrderId) == {}
  {
    var s1 := InsertOrder(s, Order(user, now)).0;
    assert Bookable(s1, s.nextOrderId, []);
    CommittedOrderOwnsItsTickets(s, user, now, tickets);
  }

  /** Two payloads for the same seat in one request roll the whole order back. */
  lemma DuplicateSeatRollsBack(s: Store, user: Id, now: int, payloads: seq<TicketPayload>, i: nat, j: nat)
    requires KeysIssued(s)
    requires i < j < |payloads| && PayloadKey(payloads[i]) == PayloadKey(payloads[j])
    ensures CreateOrder(s, user, now, Some(payloads)).outcome.Failure?
    ensures CreateOrder(s, user, now, Some(payloads)).store == s
  {
  }

  /** The tickets a commit adds are the payloads' tickets. */
  lemma NewTicketsArePayloads(s: Store, s': Store, order: Id, payloads: seq<TicketPayload>, t: Id)
    requires Extends(s, s', order, payloads)
    requires t in s'.tickets && t !in s.tickets
    ensures 0 <= t - s.nextTicketId < |payloads|
    ensures s'.tickets[t] == NewTicket(payloads[t - s.nextTicketId], order)
  {
    var i := t - s.nextTicketId;
    assert s'.tickets[s.nextTicketId + i] == NewTicket(payloads[i], order);
  }

  /** Extending a store by bookable payloads keeps the database constraints. */
  lemma ExtendsKeepsConstraints(s: Store, s': Store, order: Id, payloads: seq<TicketPayload>)
    requires Constraints(s)
    requires Bookable(s, order, payloads)
    requires Extends(s, s', order, payloads)
    ensures Constraints(s')
  {
    forall a, b | a in s'.tickets && b in s'.tickets && a != b
      ensures SeatKey(s'.tickets[a]) != SeatKey(s'.tickets[b])
    {
      if a in s.tickets && b in s.tickets {
        assert s'.tickets[a] == s.tickets[a] && s'.tickets[b] == s.tickets[b];
      } else if a in s.tickets {
        NewTicketsArePayloads(s, s', order, payloads, b);
        assert SeatKey(s.tickets[a]) in Booked(s);
      } else if b in s.tickets {
        NewTicketsArePayloads(s, s', order, payloads, a);
        assert SeatKey(s.tickets[b]) in Booked(s);
      } else {
        NewTicketsArePayloads(s, s', order, payloads, a);
        NewTicketsArePayloads(s, s', order, payloads, b);
        var i, j := a - s.nextTicketId, b - s.nextTicketId;
        if i < j {
          assert PayloadKey(payloads[i]) != PayloadKey(payloads[j]);
        } else {
          assert PayloadKey(payloads[j]) != PayloadKey(payloads[i]);
        }
      }
    }
    forall t | t in s'.tickets
      ensures s'.tickets[t].flight in s'.flights && s'.tickets[t].order in s'.orders
    {
      if t !in s.tickets {
        NewTicketsArePayloads(s, s', order, payloads, t);
      }
    }
  }

  /** Extending a store by payloads that fit their airplanes keeps every
      ticket within its layout. */
  lemma ExtendsKeepsLayout(s: Store, s': Store, order: Id, payloads: seq<TicketPayload>)
    requires SeatsWithinLayout(s)
    requires forall i :: 0 <= i < |payloads| ==> payloads[i].flight in s.flights
    requires AllSeatsFit(s, payloads)
    requires Extends(s, s', order, payloads)
    ensures SeatsWithinLayout(s')
  {
    forall t | t in s'.tickets && TicketPlane(s', s'.tickets[t]).Some?
      ensures SeatFits(s'.tickets[t].row, s'.tickets[t].seat, TicketPlane(s', s'.tickets[t]).value)
    {
      if t in s.tickets {
        assert TicketPlane(s', s'.tickets[t]) == TicketPlane(s, s.tickets[t]);
      } else {
        NewTicketsArePayloads(s, s', order, payloads, t);
        var i := t - s.nextTicketId;
        assert TicketPlane(s', s'.tickets[t]) == FlightPlane(s, s.flights[payloads[i].flight]);
      }
    }
  }

  /** Adding the order row keeps the store valid and leaves every flight's
      airplane as it was, so the payloads still fit. */
  lemma InsertOrderKeepsValid(s: Store, user: Id, now: int, payloads: seq<TicketPayload>)
    requires Valid(s)
    requires forall i :: 0 <= i < |payloads| ==> payloads[i].flight in s.flights
    requires AllSeatsFit(s, payloads)
    ensures Constraints(InsertOrder(s, Order(user, now)).0)
    ensures SeatsWithinLayout(InsertOrder(s, Order(user, now)).0)
    ensures AllSeatsFit(InsertOrder(s, Order(user, now)).0, payloads)
  {
    var s1 := InsertOrder(s, Order(user, now)).0;
    assert forall t :: t in s1.tickets ==> TicketPlane(s1, s1.tickets[t]) == TicketPlane(s, s.tickets[t]);
    assert forall i :: 0 <= i < |payloads| ==>
      FlightPlane(s1, s1.flights[payloads[i].flight]) == FlightPlane(s, s.flights[payloads[i].flight]);
  }

  /** A committed order whose payloads fit their airplanes keeps the store valid. */
  lemma CommitKeepsValid(s: Store, user: Id, now: int, tickets: Option<seq<TicketPayload>>)
    requires Valid(s)
    requires forall i :: 0 <= i < |PayloadsOf(tickets)| ==> PayloadsOf(tickets)[i].flight in s.flights
    requires AllSeatsFit(s, PayloadsOf(tickets))
    requires CreateOrder(s, user, now, tickets).outcome.Success?
    ensures Valid(CreateOrder(s, user, now, tickets).store)
  {
    var payloads := PayloadsOf(tickets);
    var s1 := InsertOrder(s, Order(user, now)).0;
    var r := CreateOrder(s, user, now, tickets);
    InsertOrderKeepsValid(s, user, now, payloads);
    assert Bookable(s1, s.nextOrderId, payloads);
    assert Extends(s1, r.store, s.nextOrderId, payloads);
    ExtendsKeepsConstraints(s1, r.store, s.nextOrderId, payloads);
    ExtendsKeepsLayout(s1, r.store, s.nextOrderId, payloads);
  }

  /** A request validated and committed keeps the store valid: the database
      constraints hold and every new ticket lies within its airplane's
      layout; a refused request leaves the store as it was. */
  lemma OrderCreatePreservesValid(s: Store, user: Id, now: int, tickets: Option<seq<TicketPayload>>)
    requires Valid(s)
    requires forall i :: 0 <= i < |PayloadsOf(tickets)| ==> PayloadsOf(tickets)[i].flight in s.flights
    ensures Valid(OrderCreateRequest(s, user, now, tickets).store)
  {
    if OrderCreateRequest(s, user, now, tickets).outcome.Success? {
      CommitKeepsValid(s, user, now, tickets);
    }
  }

  /** The number of payloads for flight `f`. */
  function CountFor(payloads: seq<TicketPayload>, f: Id): (n: nat)
    ensures n <= |payloads|
    decreases |payloads|
  {
    if |payloads| == 0 then 0
    else (if payloads[0].flight == f then 1 else 0) + CountFor(payloads[1..], f)
  }

  /** One successful insert adds its ticket to its own flight's tickets and
      to no other flight's. */
  lemma InsertTicketCount(s: Store, t: Ticket, f: Id)
    requires KeysIssued(s)
    requires InsertTicket(s, t).Success?
    ensures |Capacity.FlightTickets(InsertTicket(s, t).value.tickets, f)|
      == |Capacity.FlightTickets(s.tickets, f)| + (if t.flight == f then 1 else 0)
  {
    var before := Capacity.FlightTickets(s.tickets, f);
    var after := Capacity.FlightTickets(InsertTicket(s, t).value.tickets, f);
    assert s.nextTicketId !in s.tickets;
    if t.flight == f {
      assert after == before + {s.nextTicketId};
    } else {
      assert after == before;
    }
  }

  /** Committing the payloads adds to flight `f` exactly the payloads for `f`. */
  lemma {:induction false} InsertTicketsCount(s: Store, order: Id, payloads: seq<TicketPayload>, f: Id)
    requires KeysIssued(s)
    requires InsertTickets(s, order, payloads).Success?
    ensures |Capacity.FlightTickets(InsertTickets(s, order, payloads).value.tickets, f)|
      == |Capacity.FlightTickets(s.tickets, f)| + CountFor(payloads, f)
    decreases |payloads|
  {
    if |payloads| > 0 {
      var t := NewTicket(payloads[0], order);
      var s1 := InsertTicket(s, t).value;
      var rest := payloads[1..];
      assert InsertTickets(s, order, payloads) == InsertTickets(s1, order, rest);
      InsertTicketsCount(s1, order, rest, f);
      InsertTicketCount(s, t, f);
    }
  }

  /** Each committed ticket on a flight lowers its available count by one. */
  lemma AvailabilityAfterOrder(s: Store, user: Id, now: int, tickets: Option<seq<TicketPayload>>, f: Id)
    requires KeysIssued(s)
    requires f in s.flights && FlightPlane(s, s.flights[f]).Some?
    requires CreateOrder(s, user, now, tickets).outcome.Success?
    ensures f in CreateOrder(s, user, now, tickets).store.flights
    ensures FlightPlane(CreateOrder(s, user, now, tickets).store, s.flights[f]).Some?
    ensures Capacity.AvailableTickets(CreateOrder(s, user, now, tickets).store, f)
      == Capacity.AvailableTickets(s, f) - CountFor(PayloadsOf(tickets), f)
  {
    var s1 := InsertOrder(s, Order(user, now)).0;
    InsertTicketsCount(s1, s.nextOrderId, PayloadsOf(tickets), f);
  }
}

=== FILE: permissions.dfy ===
/** The API's access rule: any signed-in user may read, and only staff may
    change anything. */
module Permissions {
  import opened Results

  /** The HTTP methods that only read. */
  const SafeMethods: set<string> := {"GET", "HEAD", "OPTIONS"}

  /** The two flags of the request's user that the rule consults. An anonymous
      visitor is a user that is neither authenticated nor staff; `None` is a
      request with no user at all. */
  datatype User = User(isAuthenticated: bool, isStaff: bool)

  /** `IsAuthenticatedReadOnlyOrIsAdmin.has_permission`, branch by branch:
      a safe method with a present, authenticated user, or else a present
      staff user. */
  function HasPermission(verb: string, user: Option<User>): (allowed: bool)
    ensures allowed <==>
      user.Some? && (user.value.isStaff || (user.value.isAuthenticated && verb in SafeMethods))
  {
    var reading := verb in SafeMethods && user.Some? && user.value.isAuthenticated;
    var administering := user.Some? && user.value.isStaff;
    reading || administering
  }

  /** Staff may use every method. */
  lemma StaffMayDoAnything(verb: string, authenticated: bool)
    ensures HasPermission(verb, Some(User(authenticated, true)))
  {
  }

  /** A signed-in user who is not staff may use exactly the safe methods. */
  lemma MembersOnlyRead(verb: string)
    ensures HasPermission(verb, Some(User(true, false))) <==> verb in SafeMethods
  {
  }

  /** Without a user, or with a user who is neither signed in nor staff,
      nothing is permitted, not even reading. */
  lemma AnonymousIsRefused(verb: string)
    ensures !HasPermission(verb, None)
    ensures !HasPermission(verb, Some(User(false, false)))
  {
  }

  /** A method that writes is permitted exactly to staff. */
  lemma WritesNeedStaff(verb: string, user: Option<User>)
    requires verb !in SafeMethods
    ensures HasPermission(verb, user) <==> user.Some? && user.value.isStaff
  {
  }

  /** Granting staff status or signing in never takes a permission away. */
  lemma PermissionMonotone(verb: string, u: User, v: User)
    requires u.isAuthenticated ==> v.isAuthenticated
    requires u.isStaff ==> v.isStaff
    ensures HasPermission(verb, Some(u)) ==> HasPermission(verb, Some(v))
  {
  }
}

=== FILE: results.dfy ===
/** Failure-carrying wrappers shared by the whole model.
    - Option<T>: a value that may be absent (a nullable foreign key, a key missing from a request)
    - Result<T, E>: either a computed value or the error that was raised instead
    - Outcome<E>: a check that either passes or fails with an error, carrying no value
 */
module Results {

  datatype Option<+T> = None | Some(value: T)

  datatype Result<+T, +E> = Success(value: T) | Failure(error: E)

  datatype Outcome<+E> = Pass | Fail(error: E)
}

=== FILE: serializers.dfy ===
/** Request-level validation of routes, flights and tickets
    (airport/serializers.py): the `validate` hooks, which fall back to the
    stored instance's values on a partial update, the flight
    unique-together validator, and how a validated request is written to the
    store. */
module Serializers {
  import opened Results
  import opened Models
  import Capacity

  /** Why a request was refused. */
  datatype Rejection =
    /** A validation error under `non_field_errors`. */
    | NonFieldError(message: string)
    /** A validation error keyed by field name. */
    | FieldErrors(errors: map<string, string>)
    /** A list serializer's error: one map per item, empty for valid items. */
    | ItemErrors(items: seq<map<string, string>>)
    /** The unique-together validator found an equal row. */
    | NotUnique(fields: seq<string>)
    /** Python raised AttributeError reading `attribute` of an `owner` object. */
    | MissingAttribute(owner: string, attribute: string)
    /** Python raised TypeError: a call got two values for `keyword`. */
    | KeywordClash(keyword: string)
    /** Python raised TypeError: `attribute` was None where an int was compared. */
    | Incomparable(attribute: string)
    /** The database refused the write. */
    | Integrity(violation: Violation)

  const SameEndpointsMessage := "The source and the destination can't be the same."
  const ArrivalMessage := "Arrival_time should be greater than Departure_time"
  const FlightUniqueFields := ["route", "airplane", "departure_time"]

  /** A field's value for validation: the one the request supplied, else the
      stored instance's; None when there is neither. */
  function Effective<T>(supplied: Option<T>, stored: Option<T>): (r: Option<T>)
    ensures supplied.Some? ==> r == supplied
    ensures supplied.None? ==> r == stored
  {
    if supplied.Some? then supplied else stored
  }

  function StoredRoute(s: Store, id: Id): Option<Route> {
    if id in s.routes then Some(s.routes[id]) else None
  }

  function StoredFlight(s: Store, id: Id): Option<Flight> {
    if id in s.flights then Some(s.flights[id]) else None
  }

  /* ---------------------------------------------------------------------
     Routes
     --------------------------------------------------------------------- */

  /** The route fields of a request's validated data; None marks a field the
      request left out (a partial update). */
  datatype RouteAttrs = RouteAttrs(source: Option<Id>, destination: Option<Id>, distance: Option<nat>)

  function SourceOf(r: Option<Route>): Option<Id> {
    if r.Some? then Some(r.value.source) else None
  }

  function DestinationOf(r: Option<Route>): Option<Id> {
    if r.Some? then Some(r.value.destination) else None
  }

  function InstanceType(instance: Option<Route>): string {
    if instance.Some? then "Route" else "NoneType"
  }

  /** `RouteSerializer.validate` as written: the destination fallback reads
      the attribute `detination`, which no route has, so any request that
      omits the destination raises AttributeError. */
  function ValidateRouteAsWritten(attrs: RouteAttrs, instance: Option<Route>): (r: Result<RouteAttrs, Rejection>)
    ensures attrs.destination.None? && Effective(attrs.source, SourceOf(instance)).Some? ==>
      r == Failure(MissingAttribute(InstanceType(instance), "detination"))
  {
    if attrs.source.None? && instance.None? then Failure(MissingAttribute("NoneType", "source"))
    else
      var source := if attrs.source.Some? then attrs.source.value else instance.value.source;
      if attrs.destination.None? then Failure(MissingAttribute(InstanceType(instance), "detination"))
      else if source == attrs.destination.value then Failure(NonFieldError(SameEndpointsMessage))
      else Success(attrs)
  }

  /** `RouteSerializer.validate` with the destination fallback reading the
      instance's `destination`: the request is refused exactly when the
      effective source equals the effective destination, and on success the
      data comes back unchanged. */
  function ValidateRoute(attrs: RouteAttrs, instance: Option<Route>): (r: Result<RouteAttrs, Rejection>)
    ensures r.Success? ==> r.value == attrs
    ensures r.Success? <==>
      && Effective(attrs.source, SourceOf(instance)).Some?
      && Effective(attrs.destination, DestinationOf(instance)).Some?
      && Effective(attrs.source, SourceOf(instance)) != Effective(attrs.destination, DestinationOf(instance))
    ensures r == Failure(NonFieldError(SameEndpointsMessage)) <==>
      && Effective(attrs.source, SourceOf(instance)).Some?
      && Effective(attrs.source, SourceOf(instance)) == Effective(attrs.destination, DestinationOf(instance))
  {
    if attrs.source.None? && instance.None? then Failure(MissingAttribute("NoneType", "source"))
    else
      var source := if attrs.source.Some? then attrs.source.value else instance.value.source;
      if attrs.destination.None? && instance.None? then Failure(MissingAttribute("NoneType", "destination"))
      else
        var destination := if attrs.destination.Some? then attrs.destination.value else instance.value.destination;
        if source == destination then Failure(NonFieldError(SameEndpointsMessage))
        else Success(attrs)
  }

  /** The typo changes the outcome only for requests without a destination:
      with one, both versions decide alike; without one, the as-written
      version always fails once a source is known. */
  lemma RouteTypoOnlyAffectsOmittedDestination(attrs: RouteAttrs, instance: Option<Route>)
    ensures attrs.destination.Some? ==> ValidateRouteAsWritten(attrs, instance) == ValidateRoute(attrs, instance)
    ensures attrs.destination.None? && instance.Some? ==>
      ValidateRouteAsWritten(attrs, instance).Failure? &&
      (ValidateRoute(attrs, instance).Success? <==> Effective(attrs.source, SourceOf(instance)) != DestinationOf(instance))
  {
  }

  /** A partial update that only changes the distance of a stored route
      crashes as written, though the route is valid. */
  lemma RouteTypoCounterexample()
    ensures ValidateRouteAsWritten(RouteAttrs(None, None, Some(900)), Some(Route(1, 2, 700)))
      == Failure(MissingAttribute("Route", "detination"))
    ensures ValidateRoute(RouteAttrs(None, None, Some(900)), Some(Route(1, 2, 700)))
      == Success(RouteAttrs(None, None, Some(900)))
  {
  }

  /** The route a validated request describes: its fields over the instance's. */
  function MergeRoute(attrs: RouteAttrs, instance: Option<Route>): Option<Route> {
    var source := Effective(attrs.source, SourceOf(instance));
    var destination := Effective(attrs.destination, DestinationOf(instance));
    var distance := Effective(attrs.distance, if instance.Some? then Some(instance.value.distance) else None);
    if source.Some? && destination.Some? && distance.Some? then Some(Route(source.value, destination.value, distance.value))
    else None
  }

  /** A route create or update under primary key `id`: validation, then the
      database write. The serializer declares no working unique-together
      validator for routes, so a duplicate (source, destination) pair is
      refused only by the database. The write succeeds exactly when
      validation passes and no other route has the same endpoints, and it
      changes that one route and nothing else. */
  function SaveRouteRequest(s: Store, id: Id, attrs: RouteAttrs): (r: Result<Store, Rejection>)
    requires MergeRoute(attrs, StoredRoute(s, id)).Some?
    ensures r.Success? <==>
      && ValidateRoute(attrs, StoredRoute(s, id)).Success?
      && !exists k :: k in s.routes && k != id && SameEndpoints(s.routes[k], MergeRoute(attrs, StoredRoute(s, id)).value)
    ensures r.Success? ==> r.value == s.(routes := s.routes[id := MergeRoute(attrs, StoredRoute(s, id)).value])
    ensures r.Failure? ==> r.error != Integrity(CheckFailed(RouteCheckName))
    ensures r.Failure? && r.error.Integrity? ==> r.error == Integrity(UniqueFailed(RouteUniqueName))
  {
    var instance := StoredRoute(s, id);
    match ValidateRoute(attrs, instance)
    case Failure(e) => Failure(e)
    case Success(_) =>
      match SaveRoute(s, id, MergeRoute(attrs, instance).value)
      case Failure(v) => Failure(Integrity(v))
      case Success(s') => Success(s')
  }

  /** A duplicate pair passes validation and reaches the database, which
      raises an integrity error instead of a validation error. */
  lemma DuplicateRouteReachesDatabase(s: Store, id: Id, attrs: RouteAttrs, other: Id)
    requires MergeRoute(attrs, StoredRoute(s, id)).Some?
    requires RouteCheck(MergeRoute(attrs, StoredRoute(s, id)).value)
    requires other in s.routes && other != id && SameEndpoints(s.routes[other], MergeRoute(attrs, StoredRoute(s, id)).value)
    ensures SaveRouteRequest(s, id, attrs) == Failure(Integrity(UniqueFailed(RouteUniqueName)))
  {
  }

  /* ---------------------------------------------------------------------
     Flights
     --------------------------------------------------------------------- */

  /** The flight fields of a request's validated data; None marks an omitted
      field. A supplied airplane may itself be null. */
  datatype FlightAttrs = FlightAttrs(route: Option<Id>, airplane: Option<Option<Id>>, departure: Option<int>, arrival: Option<int>)

  function DepartureOf(f: Option<Flight>): Option<int> {
    if f.Some? then Some(f.value.departure) else None
  }

  function ArrivalOf(f: Option<Flight>): Option<int> {
    if f.Some? then Some(f.value.arrival) else None
  }

  /** `FlightSerializer.validate`: refused exactly when the effective arrival
      is not after the effective departure; on success the data comes back
      unchanged. */
  function ValidateFlight(data: FlightAttrs, instance: Option<Flight>): (r: Result<FlightAttrs, Rejection>)
    ensures r.Success? ==> r.value == data
    ensures r.Success? <==>
      && Effective(data.departure, DepartureOf(instance)).Some?
      && Effective(data.arrival, ArrivalOf(instance)).Some?
      && Effective(data.arrival, ArrivalOf(instance)).value > Effective(data.departure, DepartureOf(instance)).value
    ensures r == Failure(NonFieldError(ArrivalMessage)) <==>
      && Effective(data.departure, DepartureOf(instance)).Some?
      && Effective(data.arrival, ArrivalOf(instance)).Some?
      && Effective(data.arrival, ArrivalOf(instance)).value <= Effective(data.departure, DepartureOf(instance)).value
  {
    if data.departure.None? && instance.None? then Failure(MissingAttribute("NoneType", "departure_time"))
    else
      var departure := if data.departure.Some? then data.departure.value else instance.value.departure;
      if data.arrival.None? && instance.None? then Failure(MissingAttribute("NoneType", "arrival_time"))
      else
        var arrival := if data.arrival.Some? then data.arrival.value else instance.value.arrival;
        if arrival <= departure then Failure(NonFieldError(ArrivalMessage))
        else Success(data)
  }

  /** The flight a request describes: its fields over the instance's. */
  function MergeFlight(data: FlightAttrs, instance: Option<Flight>): Option<Flight> {
    var route := Effective(data.route, if instance.Some? then Some(instance.value.route) else None);
    var airplane := Effective(data.airplane, if instance.Some? then Some(instance.value.airplane) else None);
    var departure := Effective(data.departure, DepartureOf(instance));
    var arrival := Effective(data.arrival, ArrivalOf(instance));
    if route.Some? && airplane.Some? && departure.Some? && arrival.Some?
    then Some(Flight(route.value, airplane.value, departure.value, arrival.value))
    else None
  }

  /** Two flights agree on (route, airplane, departure_time), a null airplane
      matching a null airplane: the validator's query filters with
      `airplane=None`, which the ORM turns into `IS NULL`. */
  predicate SameTriple(g: Flight, f: Flight) {
    g.route == f.route && g.airplane == f.airplane && g.departure == f.departure
  }

  /** Whether the unique-together validator queries at all. On a create it
      looks at the three supplied values and skips when one is None, which
      only the airplane can be. On an update it looks only at the values that
      differ from the instance's: it skips when none differs, or when the
      airplane is changed to None. */
  predicate TripleChecked(f: Flight, instance: Option<Flight>) {
    if instance.None? then f.airplane.Some?
    else
      var g := instance.value;
      && (f.route != g.route || f.airplane != g.airplane || f.departure != g.departure)
      && !(f.airplane != g.airplane && f.airplane.None?)
  }

  /** The unique-together validator on (route, airplane, departure_time) for
      the flight `f` that a create (no instance) or an update of `instance`
      under key `id` describes: it refuses when it queries and finds another
      flight with the same triple. */
  function FlightUniqueTogether(s: Store, id: Id, f: Flight, instance: Option<Flight>): (r: Outcome<Rejection>)
    ensures r.Fail? <==> TripleChecked(f, instance) && exists k :: k in s.flights && k != id && SameTriple(s.flights[k], f)
    ensures r.Fail? ==> r.error == NotUnique(FlightUniqueFields)
  {
    if TripleChecked(f, instance) && exists k :: k in s.flights && k != id && SameTriple(s.flights[k], f)
    then Fail(NotUnique(FlightUniqueFields))
    else Pass
  }

  /** On a create the validator refuses exactly the flights the database's
      unique constraint refuses. */
  lemma CreateUniqueMatchesDatabase(s: Store, id: Id, f: Flight)
    ensures FlightUniqueTogether(s, id, f, None).Fail? <==>
      exists k :: k in s.flights && k != id && FlightsClash(s.flights[k], f)
  {
    if exists k :: k in s.flights && k != id && FlightsClash(s.flights[k], f) {
      var k :| k in s.flights && k != id && FlightsClash(s.flights[k], f);
      assert SameTriple(s.flights[k], f);
    }
    if FlightUniqueTogether(s, id, f, None).Fail? {
      var k :| k in s.flights && k != id && SameTriple(s.flights[k], f);
      assert FlightsClash(s.flights[k], f);
    }
  }

  /** In a store whose flights are unique, whatever the validator lets
      through the database's unique constraint also accepts. */
  lemma UniqueTogetherGuardsDatabase(s: Store, id: Id, f: Flight)
    requires FlightsUnique(s.flights)
    requires FlightUniqueTogether(s, id, f, StoredFlight(s, id)).Pass?
    ensures !exists k :: k in s.flights && k != id && FlightsClash(s.flights[k], f)
  {
    forall k | k in s.flights && k != id
      ensures !FlightsClash(s.flights[k], f)
    {
      if FlightsClash(s.flights[k], f) {
        assert SameTriple(s.flights[k], f);
      }
    }
  }

  /** Validation of a flight create or update under `id`: the validators
      first, then `validate`. */
  function ValidateFlightRequest(s: Store, id: Id, data: FlightAttrs): (r: Result<Flight, Rejection>)
    requires MergeFlight(data, StoredFlight(s, id)).Some?
    ensures r.Success? ==> r.value == MergeFlight(data, StoredFlight(s, id)).value
    ensures r.Success? <==>
      && FlightCheck(MergeFlight(data, StoredFlight(s, id)).value)
      && !(TripleChecked(MergeFlight(data, StoredFlight(s, id)).value, StoredFlight(s, id))
           && exists k :: k in s.flights && k != id && SameTriple(s.flights[k], MergeFlight(data, StoredFlight(s, id)).value))
  {
    var instance := StoredFlight(s, id);
    var f := MergeFlight(data, instance).value;
    match FlightUniqueTogether(s, id, f, instance)
    case Fail(e) => Failure(e)
    case Pass =>
      match ValidateFlight(data, instance)
      case Failure(e) => Failure(e)
      case Success(_) => Success(f)
  }

  /** An update that only moves the departure of a flight without an airplane
      onto the departure of another airplane-less flight on the same route is
      refused, although the database, for which nulls differ, would accept it.
      As with every flight update here, this is the serializer's decision for
      a write that no flight endpoint in the code modelled exposes. */
  lemma NullAirplaneUpdateRefused()
    ensures
      var s := Store(map[], map[0 := Route(1, 2, 100)],
        map[0 := Flight(0, None, 0, 10), 1 := Flight(0, None, 5, 15)], map[], map[], 0, 0);
      && ValidateFlightRequest(s, 1, FlightAttrs(None, None, Some(0), None)).Failure?
      && SaveFlight(s, 1, Flight(0, None, 0, 15)).Success?
  {
    var s := Store(map[], map[0 := Route(1, 2, 100)],
      map[0 := Flight(0, None, 0, 10), 1 := Flight(0, None, 5, 15)], map[], map[], 0, 0);
    assert MergeFlight(FlightAttrs(None, None, Some(0), None), StoredFlight(s, 1)) == Some(Flight(0, None, 0, 15));
    assert SameTriple(s.flights[0], Flight(0, None, 0, 15));
  }

  /** A flight request that validates never meets the database's check or
      unique constraint, in a store whose flights are unique: once its route
      and airplane exist, the write succeeds. */
  lemma ValidatedFlightSaves(s: Store, id: Id, data: FlightAttrs)
    requires FlightsUnique(s.flights)
    requires MergeFlight(data, StoredFlight(s, id)).Some?
    requires ValidateFlightRequest(s, id, data).Success?
    requires MergeFlight(data, StoredFlight(s, id)).value.route in s.routes
    requires MergeFlight(data, StoredFlight(s, id)).value.airplane.Some? ==>
      MergeFlight(data, StoredFlight(s, id)).value.airplane.value in s.airplanes
    ensures SaveFlight(s, id, MergeFlight(data, StoredFlight(s, id)).value).Success?
  {
    var f := MergeFlight(data, StoredFlight(s, id)).value;
    assert FlightUniqueTogether(s, id, f, StoredFlight(s, id)).Pass?;
    UniqueTogetherGuardsDatabase(s, id, f);
  }

  /** A flight on a 2 × 1 airplane with both of its seats sold; a 1 × 1
      airplane stands by. */
  function TwoSeatsSold(): Store {
    Store(
      map[1 := Airplane("Wide", 2, 1, 0), 2 := Airplane("Small", 1, 1, 0)],
      map[0 := Route(1, 2, 100)],
      map[0 := Flight(0, Some(1), 0, 10)],
      map[0 := Order(0, 0)],
      map[0 := Ticket(1, 1, 0, 0), 1 := Ticket(2, 1, 0, 0)],
      1, 2)
  }

  lemma TwoSeatsSoldIsValid()
    ensures Valid(TwoSeatsSold())
  {
    TwoSeatsSoldUnique();
    TwoSeatsSoldResolves();
    TwoSeatsSoldFits();
  }

  lemma TwoSeatsSoldUnique()
    ensures RoutesUnique(TwoSeatsSold().routes)
    ensures FlightsUnique(TwoSeatsSold().flights)
    ensures TicketsUnique(TwoSeatsSold().tickets)
  {
  }

  lemma TwoSeatsSoldResolves()
    ensures ReferencesResolve(TwoSeatsSold())
    ensures KeysIssued(TwoSeatsSold())
    ensures forall r :: r in TwoSeatsSold().routes ==> RouteCheck(TwoSeatsSold().routes[r])
    ensures forall f :: f in TwoSeatsSold().flights ==> FlightCheck(TwoSeatsSold().flights[f])
  {
  }

  lemma TwoSeatsSoldFits()
    ensures SeatsWithinLayout(TwoSeatsSold())
  {
  }

  /** Flight validation looks at the times and the unique triple only. An
      update that moves the flight of `TwoSeatsSold` onto the 1 × 1 airplane
      validates and is written: the second ticket is left outside the new
      layout and the flight reports -1 available tickets. The flight API
      refuses POST and PUT (airport/tests/test_flight_api.py:318-324), so this
      is what the serializer would decide if a flight write reached it. */
  lemma ShrinkingAirplaneCounterexample()
    ensures Valid(TwoSeatsSold())
    ensures ValidateFlightRequest(TwoSeatsSold(), 0, FlightAttrs(None, Some(Some(2)), None, None))
      == Success(Flight(0, Some(2), 0, 10))
    ensures SaveFlight(TwoSeatsSold(), 0, Flight(0, Some(2), 0, 10)).Success?
    ensures !SeatsWithinLayout(SaveFlight(TwoSeatsSold(), 0, Flight(0, Some(2), 0, 10)).value)
    ensures Capacity.AvailableTickets(SaveFlight(TwoSeatsSold(), 0, Flight(0, Some(2), 0, 10)).value, 0) == -1
  {
    var s := TwoSeatsSold();
    var f := Flight(0, Some(2), 0, 10);
    TwoSeatsSoldIsValid();
    assert MergeFlight(FlightAttrs(None, Some(Some(2)), None, None), StoredFlight(s, 0)) == Some(f);
    assert !exists k :: k in s.flights && k != 0 && FlightsClash(s.flights[k], f);
    var s' := SaveFlight(s, 0, f).value;
    assert s'.tickets[1] == Ticket(2, 1, 0, 0);
    assert TicketPlane(s', s'.tickets[1]) == Some(Airplane("Small", 1, 1, 0));
    assert Capacity.FlightTickets(s'.tickets, 0) == {0, 1};
  }

  /** A flight request that, besides validating, is refused when a seat
      already sold on the flight lies outside the airplane it would get. */
  function ValidateFlightRequestKeepingSeats(s: Store, id: Id, data: FlightAttrs): (r: Result<Flight, Rejection>)
    requires MergeFlight(data, StoredFlight(s, id)).Some?
    ensures r.Success? ==> r.value == MergeFlight(data, StoredFlight(s, id)).value
    ensures r.Success? <==>
      && ValidateFlightRequest(s, id, data).Success?
      && (FlightPlane(s, MergeFlight(data, StoredFlight(s, id)).value).Some? ==>
            TicketsFit(s, id, FlightPlane(s, MergeFlight(data, StoredFlight(s, id)).value).value))
  {
    var f := MergeFlight(data, StoredFlight(s, id)).value;
    match ValidateFlightRequest(s, id, data)
    case Failure(e) => Failure(e)
    case Success(_) =>
      if FlightPlane(s, f).Some? && !TicketsFit(s, id, FlightPlane(s, f).value)
      then Failure(NonFieldError(SoldSeatsMessage))
      else Success(f)
  }

  const SoldSeatsMessage := "Sold seats do not fit the airplane's layout"

  /** A flight request accepted under the seat check is written by the
      database and keeps the store valid, so every flight's availability
      stays non-negative. */
  lemma SeatKeepingFlightSaveKeepsValid(s: Store, id: Id, data: FlightAttrs)
    requires Valid(s)
    requires MergeFlight(data, StoredFlight(s, id)).Some?
    requires ValidateFlightRequestKeepingSeats(s, id, data).Success?
    requires MergeFlight(data, StoredFlight(s, id)).value.route in s.routes
    requires MergeFlight(data, StoredFlight(s, id)).value.airplane.Some? ==>
      MergeFlight(data, StoredFlight(s, id)).value.airplane.value in s.airplanes
    ensures SaveFlight(s, id, MergeFlight(data, StoredFlight(s, id)).value).Success?
    ensures Valid(SaveFlight(s, id, MergeFlight(data, StoredFlight(s, id)).value).value)
  {
    ValidatedFlightSaves(s, id, data);
    SaveFlightPreservesValid(s, id, MergeFlight(data, StoredFlight(s, id)).value);
  }

  /* ---------------------------------------------------------------------
     Tickets
     --------------------------------------------------------------------- */

  /** A ticket's validated data. `order` is None when the request left the
      field out, Some(None) when it sent null. */
  datatype TicketPayload = TicketPayload(seat: nat, row: nat, flight: Id, order: Option<Option<Id>>)

  /** `TicketSerializer.validate`: the seat/row validator on the payload's
      seat, row and flight. A flight whose airplane was deleted makes the
      validator read an attribute of None. */
  function ValidateTicket(s: Store, data: TicketPayload): (r: Result<TicketPayload, Rejection>)
    requires data.flight in s.flights
    ensures r.Success? ==> r.value == data
    ensures r.Success? <==>
      FlightPlane(s, s.flights[data.flight]).Some? && SeatFits(data.row, data.seat, FlightPlane(s, s.flights[data.flight]).value)
    ensures r.Failure? && r.error.FieldErrors? ==>
      FlightPlane(s, s.flights[data.flight]).Some? &&
      r.error == FieldErrors(ValidateSeatAndRow(data.seat, data.row, FlightPlane(s, s.flights[data.flight]).value).error)
    ensures r.Failure? && !r.error.FieldErrors? ==> FlightPlane(s, s.flights[data.flight]).None?
  {
    var plane := FlightPlane(s, s.flights[data.flight]);
    if plane.None? then Failure(MissingAttribute("NoneType", "rows"))
    else
      match ValidateSeatAndRow(data.seat, data.row, plane.value)
      case Fail(errors) => Failure(FieldErrors(errors))
      case Pass => Success(data)
  }

  /** The serializer accepts exactly the tickets `Ticket.clean` accepts,
      reports the same range messages, and fails on a flight without an
      airplane exactly where `clean` does. */
  lemma TicketValidateMatchesClean(s: Store, data: TicketPayload, order: Id)
    requires data.flight in s.flights
    ensures ValidateTicket(s, data).Success? <==> Clean(s, Ticket(data.row, data.seat, data.flight, order)).Pass?
    ensures ValidateTicket(s, data) == Failure(MissingAttribute("NoneType", "rows")) <==>
      Clean(s, Ticket(data.row, data.seat, data.flight, order)) == Fail(MissingAirplane)
    ensures ValidateTicket(s, data).Failure? && ValidateTicket(s, data).error.FieldErrors? ==>
      Clean(s, Ticket(data.row, data.seat, data.flight, order)) == Fail(OutOfRange(ValidateTicket(s, data).error.errors))
  {
  }

  /** The fields of a ticket request that may be left out: on a partial
      update (PATCH) a field the request omits is absent from the data. */
  datatype TicketPatch = TicketPatch(seat: Option<nat>, row: Option<nat>, flight: Option<Id>)

  /** `TicketSerializer.validate` on data that may omit fields. It hands
      `data.get(...)` to the validator without looking at the instance: an
      omitted flight makes it read `airplane` of None, and an omitted row or
      seat makes it compare None with an int. The validator reads the row's
      bound, compares the row, then does the same for the seat. */
  function ValidateTicketAsWritten(s: Store, data: TicketPatch): (r: Result<TicketPatch, Rejection>)
    requires data.flight.Some? ==> data.flight.value in s.flights
    ensures data.flight.None? ==> r == Failure(MissingAttribute("NoneType", "airplane"))
    ensures data.flight.Some? && FlightPlane(s, s.flights[data.flight.value]).None? ==>
      r == Failure(MissingAttribute("NoneType", "rows"))
    ensures data.flight.Some? && FlightPlane(s, s.flights[data.flight.value]).Some? && data.row.None? ==>
      r == Failure(Incomparable("row"))
    ensures data.flight.Some? && FlightPlane(s, s.flights[data.flight.value]).Some? && data.row.Some? && data.seat.None? ==>
      r == Failure(Incomparable("seat"))
    ensures data.seat.Some? && data.row.Some? && data.flight.Some? ==>
      && (r.Success? <==> ValidateTicket(s, TicketPayload(data.seat.value, data.row.value, data.flight.value, None)).Success?)
      && (r.Failure? ==> r.error == ValidateTicket(s, TicketPayload(data.seat.value, data.row.value, data.flight.value, None)).error)
  {
    if data.flight.None? then Failure(MissingAttribute("NoneType", "airplane"))
    else
      var plane := FlightPlane(s, s.flights[data.flight.value]);
      if plane.None? then Failure(MissingAttribute("NoneType", "rows"))
      else if data.row.None? then Failure(Incomparable("row"))
      else if data.seat.None? then Failure(Incomparable("seat"))
      else
        match ValidateSeatAndRow(data.seat.value, data.row.value, plane.value)
        case Pass => Success(data)
        case Fail(errors) => Failure(FieldErrors(errors))
  }

  function SeatOf(t: Option<Ticket>): Option<nat> {
    if t.Some? then Some(t.value.seat) else None
  }

  function RowOf(t: Option<Ticket>): Option<nat> {
    if t.Some? then Some(t.value.row) else None
  }

  function FlightOf(t: Option<Ticket>): Option<Id> {
    if t.Some? then Some(t.value.flight) else None
  }

  /** `TicketSerializer.validate` falling back to the stored ticket for
      omitted fields, as the route and flight hooks do: the request is
      accepted exactly when the effective seat, row and flight exist and the
      seat fits the flight's airplane, and its field errors are the
      validator's. */
  function ValidateTicketPatch(s: Store, data: TicketPatch, instance: Option<Ticket>): (r: Result<TicketPatch, Rejection>)
    requires Effective(data.flight, FlightOf(instance)).Some? ==> Effective(data.flight, FlightOf(instance)).value in s.flights
    ensures r.Success? ==> r.value == data
    ensures r.Success? <==>
      && Effective(data.seat, SeatOf(instance)).Some?
      && Effective(data.row, RowOf(instance)).Some?
      && Effective(data.flight, FlightOf(instance)).Some?
      && FlightPlane(s, s.flights[Effective(data.flight, FlightOf(instance)).value]).Some?
      && SeatFits(Effective(data.row, RowOf(instance)).value, Effective(data.seat, SeatOf(instance)).value,
                  FlightPlane(s, s.flights[Effective(data.flight, FlightOf(instance)).value]).value)
    ensures r.Failure? && r.error.FieldErrors? ==>
      && Effective(data.seat, SeatOf(instance)).Some?
      && Effective(data.row, RowOf(instance)).Some?
      && Effective(data.flight, FlightOf(instance)).Some?
      && FlightPlane(s, s.flights[Effective(data.flight, FlightOf(instance)).value]).Some?
      && Fail(r.error.errors) == ValidateSeatAndRow(Effective(data.seat, SeatOf(instance)).value,
           Effective(data.row, RowOf(instance)).value,
           FlightPlane(s, s.flights[Effective(data.flight, FlightOf(instance)).value]).value)
  {
    var seat := Effective(data.seat, SeatOf(instance));
    var row := Effective(data.row, RowOf(instance));
    var flight := Effective(data.flight, FlightOf(instance));
    if flight.None? then Failure(MissingAttribute("NoneType", "flight"))
    else if row.None? then Failure(MissingAttribute("NoneType", "row"))
    else if seat.None? then Failure(MissingAttribute("NoneType", "seat"))
    else
      match ValidateTicket(s, TicketPayload(seat.value, row.value, flight.value, None))
      case Success(_) => Success(data)
      case Failure(e) => Failure(e)
  }

  /** With every field supplied, the fallback changes nothing: both versions
      decide alike. */
  lemma TicketFallbackAgreesOnFullData(s: Store, data: TicketPatch, instance: Option<Ticket>)
    requires data.seat.Some? && data.row.Some? && data.flight.Some? && data.flight.value in s.flights
    ensures ValidateTicketAsWritten(s, data) == ValidateTicketPatch(s, data, instance)
  {
  }

  /** A PATCH of ticket 0 of `TwoSeatsSold` that sends only its row crashes
      as written, though the ticket is valid; with the fallback it passes. */
  lemma TicketPatchCounterexample()
    ensures 0 in TwoSeatsSold().tickets
    ensures ValidateTicketAsWritten(TwoSeatsSold(), TicketPatch(None, Some(1), None))
      == Failure(MissingAttribute("NoneType", "airplane"))
    ensures ValidateTicketPatch(TwoSeatsSold(), TicketPatch(None, Some(1), None), Some(TwoSeatsSold().tickets[0]))
      == Success(TicketPatch(None, Some(1), None))
  {
    var s := TwoSeatsSold();
    assert s.tickets[0] == Ticket(1, 1, 0, 0);
    assert FlightPlane(s, s.flights[0]) == Some(Airplane("Wide", 2, 1, 0));
  }
}
